=== FILE: README.md ===
# DML-MD bot core in Dafny

This project models the core of the DML-MD WhatsApp bot in Dafny and proves properties of it. The core is the bot's business rules and its message intake:

- **Attendance plugin** (`plugins/attendance.js`):
  - the attendance-form detector and validator;
  - the streak state machine and the reward computation;
  - the once-per-day record update done by the body handler;
  - the admin check and the on/off settings parser.
- **Economy plugin** (`plugins/economy.js`):
  - the user ledger and `send`, `deposit`, `withdraw`;
  - the daily attendance reward;
  - `rob`, with the coin flip and the roll taken as inputs;
  - the clan state machine: create, join, leave and disband.
- **Investment plugin** (`plugins/investment.js`):
  - the duration parser and `initShares`;
  - company selection;
  - the `buy` validation and arithmetic;
  - the portfolio totals.
- **Message intake** (`index.js`):
  - one-level ephemeral unwrap and body extraction;
  - prefix, command and argument tokenisation;
  - group test and sender resolution;
  - the database ban gate;
  - digit-only target numbers in the database admin commands;
  - the reconnect decision.

The model is functional. Each piece of JavaScript state becomes an immutable value, and each command becomes a pure transition from the old state to a new state plus a reply tag:

- the `eco` object is an `Economy.Ledger`, a map from user id to `User`;
- the attendance object is an `Attendance.Book`;
- the clan object is `Economy.Clans`;
- the company file is an `Investment.Catalogue`.

Clock readings are inputs: calendar days are integers, with yesterday = today - 1, and `Date.now()` is an integer of milliseconds. `Math.random()` is also an input.

Modules:

- `Maybe`: `Option`.
- `Text`: the JavaScript string operations the code relies on:
  - `trim` and `\s` over the exact ECMAScript white-space set;
  - `split(' ')`, `split(/\s+/)` and `split(/ +/)`;
  - `join`, `startsWith`, `endsWith`, `includes`;
  - `toLowerCase` for the characters that lower-case to an ASCII letter (`A`-`Z` and U+212A KELVIN SIGN);
  - case-insensitive literal regex search;
  - `parseInt`, and decimal rendering of integers.
- `Economy`, `Attendance`, `Investment`, `Intake`: one per source file, as listed above.

## Model

| member | source | states |
|---|---|---|
| Economy.InitUser | plugins/economy.js:19-31 | a missing user is added with balance 0, bank 0, no clan, no attendance date and no shares; existing users are never overwritten and no other record changes |
| Economy.InitUserIdempotent | plugins/economy.js:19-31 | running `initUser` twice is the same as running it once |
| Economy.SendAsWritten | plugins/economy.js:45-58 | the transfer as written: it succeeds exactly when there is a mention, a number and the sender's balance is at least the amount, and changes nothing otherwise |
| Economy.SendAsWrittenTakesFromRecipient | plugins/economy.js:50-57 | with a negative amount the written transfer succeeds and moves money from the mentioned user to the sender |
| Economy.SendAsWrittenBreaksSolvency | plugins/economy.js:50-57 | a negative amount sent to a user with balance 0 leaves a negative balance in the ledger |
| Economy.Send | plugins/economy.js:45-58 | usage error iff mention or amount is missing; succeeds iff 0 < amount <= sender balance; on success only sender and recipient change, each record only in its balance: the sender is debited and the recipient credited by the amount, and their sum is kept; a self-send changes no balance |
| Economy.SendNeverTakesFromRecipient | plugins/economy.js:50-57 | the recipient's balance never falls and the sender's never rises |
| Economy.SendAmountReadsThirdWord | plugins/economy.js:47-52 | the amount is read from the third space-separated word of `.send @tag n`, for every integer n |
| Economy.DepositAmountReadsSecondWord | plugins/economy.js:72-73 | the deposit amount is the second white-space separated word of the trimmed body |
| Economy.WithdrawAmountReadsSecondWord | plugins/economy.js:89 | the withdraw amount is the second word of the body split on single spaces |
| Economy.Deposit | plugins/economy.js:69-81 | rejected iff the amount is missing or not positive, or exceeds the balance; on success the amount moves from balance to bank; balance + bank is always kept and no other user changes |
| Economy.Withdraw | plugins/economy.js:87-96 | rejected iff the amount is missing or not positive, or exceeds the bank; on success the amount moves from bank to balance; balance + bank is always kept and no other user changes |
| Economy.WithdrawUndoesDeposit | plugins/economy.js:69-96 | withdrawing what was just deposited restores the ledger as it was after `initUser` |
| Economy.SendKeepsSolvent | plugins/economy.js:45-58 | the corrected transfer never makes a balance or bank negative |
| Economy.DepositKeepsSolvent | plugins/economy.js:69-81 | a deposit never makes a balance or bank negative |
| Economy.WithdrawKeepsSolvent | plugins/economy.js:87-96 | a withdrawal never makes a balance or bank negative |
| Economy.InitUserKeepsSolvent | plugins/economy.js:19-31 | adding a user keeps every balance and bank non-negative |
| Economy.RewardFormDetectedSpec | plugins/economy.js:102 | the reward handler fires iff a case-insensitive "Name:" is followed, later in the body, by "Relationship:" |
| Economy.AttendanceReward | plugins/economy.js:104-120 | no form: nothing happens; already rewarded today: ledger only initialised; otherwise the sender gains exactly 500, the attendance day becomes today, and nobody else changes |
| Economy.AttendanceRewardOncePerDay | plugins/economy.js:113-120 | a second reward form on the same day is refused and changes nothing |
| Economy.AttendanceRewardKeepsSolvent | plugins/economy.js:104-120 | the reward never makes a balance or bank negative |
| Economy.StolenAmount | plugins/economy.js:159-160 | the stolen amount lies between 200 and the target's balance |
| Economy.Rob | plugins/economy.js:137-187 | self-rob, cooldown (30 minutes) and a poor target (< 1000) are refused in that order, with no change; an attempt sets the cooldown; success moves the stolen amount to the robber; failure moves the 500 penalty to the target iff the robber has 500; only the balances of the two records change; robber + target is kept and nobody else changes |
| Economy.Heist | plugins/economy.js:157-181 | success iff the coin flip says so; a success moves between 200 and the whole target balance from target to robber; a failure moves 500 the other way iff the robber has 500 and changes nothing otherwise; every other field of both records is kept; the cooldown is set; robber + target is kept and nobody else changes |
| Economy.RobCooldownBlocksRetry | plugins/economy.js:146-150 | after an attempt, which stamps the cooldown at lines 165 and 179, any further attempt within 30 minutes is refused |
| Economy.RobKeepsSolvent | plugins/economy.js:137-187 | robbing never makes a balance or bank negative |
| Economy.Without | plugins/economy.js:241 | removes exactly the given member and keeps the list free of duplicates |
| Economy.ClearClan | plugins/economy.js:250 | exactly the listed members lose their clan; every other record is unchanged |
| Economy.ClanCommand | plugins/economy.js:201-268 | create succeeds iff a name is given, the user has no clan and the name is new, making the user leader and sole member; join iff the clan exists and the user has no clan, appending the user; leave iff the user is in an existing clan and not its leader, removing only the sender; disband iff the user leads an existing clan, deleting the clan and clearing every member; any other reply changes nothing |
| Economy.InitUserKeepsClans | plugins/economy.js:19-31 | adding a user keeps clan records and user clan fields in agreement |
| Economy.CreateKeepsClans | plugins/economy.js:214-227 | creating a clan keeps clan records and user clan fields in agreement |
| Economy.JoinKeepsClans | plugins/economy.js:229-235 | joining keeps clan records and user clan fields in agreement |
| Economy.LeaveKeepsClans | plugins/economy.js:237-244 | leaving keeps clan records and user clan fields in agreement |
| Economy.DisbandKeepsClans | plugins/economy.js:246-253 | disbanding keeps clan records and user clan fields in agreement |
| Economy.ClanCommandKeepsClans | plugins/economy.js:201-268 | every clan subcommand keeps clan records and user clan fields in agreement |
| Attendance.InitAttendanceUser | plugins/attendance.js:26-35 | a missing user gets a record with zero totals and streaks and no date; existing records are never overwritten |
| Attendance.InitAttendanceUserIdempotent | plugins/attendance.js:26-35 | running it twice is the same as running it once |
| Attendance.GroupAdmins | plugins/attendance.js:72-84 | the admin list holds exactly the participants whose role is admin or superadmin |
| Attendance.IsAuthorized | plugins/attendance.js:87-99 | authorised iff the sender is in the fixed admin list, or the chat is a group whose metadata lists the sender as admin or superadmin |
| Attendance.GetImageStatus | plugins/attendance.js:148-156 | detected iff there is an image; required-but-missing iff required and absent; optional otherwise |
| Attendance.FindHeader | plugins/attendance.js:163 | finds the leftmost "GIST" + white space + "HQ" header, case-insensitively |
| Attendance.HeadersDoNotOverlap | plugins/attendance.js:163 | two header matches never overlap |
| Attendance.FormDetectedSpec | plugins/attendance.js:163 | the handler (lines 275-277) treats a body as a form iff a header is followed by "Name:"/"Name*" and then by "Relationship:"/"Relationship*" |
| Attendance.FieldIsMissingSpec | plugins/attendance.js:192-210 | a field is missing iff its label never occurs, or the trimmed text after its first occurrence (rest of line after the white space) has a JavaScript `.length`, in UTF-16 code units, below the minimum length (at least 1) |
| Attendance.CaptureOfBlank | plugins/attendance.js:203-206 | when only white space follows a label, the capture is absent or trims to empty |
| Attendance.CaptureOfContent | plugins/attendance.js:203-206 | when text follows a label, the capture is the rest of that line after the white space and it is not blank |
| Attendance.MissingNames | plugins/attendance.js:201-210 | a field name is listed iff that field is missing |
| Attendance.AsMissingFields | plugins/attendance.js:207-209 | each missing name becomes exactly one missing-field entry, in order |
| Attendance.Validate | plugins/attendance.js:166-242 | without the header, Name or Relationship markers the form is invalid with one error and no missing fields; otherwise there are no errors; the form is valid iff the markers are present and nothing is missing; a required image that is absent always invalidates |
| Attendance.MissingEntries | plugins/attendance.js:186-234 | a required but absent image is reported first, and an image entry appears iff the image is required and absent; every other entry is a wake-up entry or names one of the seven fields that is missing |
| Attendance.CompleteFormApproved | plugins/attendance.js:181-239 | a form is approved iff the header, Name and Relationship markers are present, a required image is attached, and none of the seven fields and none of the three wake-up slots is missing |
| Attendance.MissingNamesExact | plugins/attendance.js:201-210 | for distinct names, a given field is listed iff it is missing |
| Attendance.ValidateReportsFields | plugins/attendance.js:192-210 | each of the seven labelled fields is reported iff it is missing |
| Attendance.ValidateReportsWakeUps | plugins/attendance.js:212-234 | wake-up members are present iff all three slots are filled; otherwise exactly one wake-up entry, the last one, lists exactly the empty slots |
| Attendance.NoneMissing | plugins/attendance.js:201-210 | no field is listed iff every field is filled |
| Attendance.WakeUpEntryLast | plugins/attendance.js:225-234 | the wake-up entry appears only when a slot is empty, and then only as the last entry |
| Attendance.WakeUpSlotsExact | plugins/attendance.js:212-224 | each wake-up slot is listed iff it is empty |
| Attendance.UpdateStreak | plugins/attendance.js:247-266 | yesterday: streak + 1; today: unchanged; otherwise reset to 1; the longest streak never falls and never lies below the streak |
| Attendance.UpdateStreakKeepsValid | plugins/attendance.js:247-266 | 0 <= streak <= longest streak is preserved |
| Attendance.Reward | plugins/attendance.js:331-343 | the reward is the base plus the image bonus; with the streak bonus on and a streak of at least 3 it is the floor of that times the multiplier |
| Attendance.DefaultRewards | plugins/attendance.js:331-343 | with the default settings of lines 51-58 a 3-day streak gives 750, or 1050 with an image; a 2-day streak with an image gives 700 |
| Attendance.Mark | plugins/attendance.js:285-363 | already marked today iff the last date is today, with no change; an incomplete form changes nothing and reports exactly the missing entries; approval iff not marked today and the form is valid; on approval the total rises by exactly 1, the date becomes today, the streak becomes the previous streak + 1 after yesterday and 1 otherwise, the longest streak is the larger of the old longest and the new streak, and only the sender's balance grows, by exactly the reward for that streak |
| Attendance.OnBody | plugins/attendance.js:271-386 | a body that is not a form leaves everything unchanged; a form adds the sender's record and touches no other record |
| Attendance.AttendanceOncePerDay | plugins/attendance.js:288-290 | after an approval, any second form on the same day is refused and changes nothing |
| Attendance.OnBodyKeepsRecordsValid | plugins/attendance.js:271-386 | every record keeps 0 <= streak <= longest streak |
| Attendance.OneEmojiFillsField | plugins/attendance.js:207 | one emoji has `.length` 2, so with the default minimum of 2 (line 55) a field holding only it is filled |
| Attendance.ParseSwitch | plugins/attendance.js:457-465 | "on"/"true"/"yes" mean on, "off"/"false"/"no" mean off, anything else is rejected (the same reading serves lines 475-483) |
| Attendance.KelvinSignNamesStreak | plugins/attendance.js:446 | the lower-casing of the setting name folds U+212A KELVIN SIGN to `k`, so "strea\u212A" names the streak setting |
| Attendance.SettingsCommand | plugins/attendance.js:418-501 | non-admins are refused; no argument shows the settings; an unknown setting name is reported; for each of the six settings an admin's accepted value is stored in exactly that setting, and a refused value is reported iff the value is missing, empty or does not read (number, multiplier or on/off word) |
| Attendance.RewardSettingTakesEffect | plugins/attendance.js:450-454 | after an admin sets the reward to n, an approved form without an image and without a streak bonus pays exactly n (lines 331-343) |
| Investment.Lookup | plugins/investment.js:126-128 | finds the company with exactly that key; absent iff no company has it |
| Investment.DurationAtSpec | plugins/investment.js:14 | a duration starts at i iff a run of digits there is followed by "d" or "w" |
| Investment.FindDuration | plugins/investment.js:14 | finds the leftmost duration match |
| Investment.GetDaysFromDuration | plugins/investment.js:13-18 | none iff the lower-cased text holds no digits followed by "d"/"w"; otherwise the leftmost match's value, times 7 for weeks |
| Investment.GetDaysReadsDuration | plugins/investment.js:13-18 | "nd"/"nD" gives n days and "nw"/"nW" gives 7n |
| Investment.InitShares | plugins/investment.js:20-22 | a user without shares gets an empty portfolio; existing shares are never cleared; no one else changes |
| Investment.InitSharesIdempotent | plugins/investment.js:20-22 | running it twice is the same as running it once |
| Investment.FirstContaining | plugins/investment.js:89-96 | finds the first company whose lower-cased key contains the input |
| Investment.SelectCompany | plugins/investment.js:71-104 | empty input is refused; an all-digit input n selects the n-th company iff 1 <= n <= count and its key is not empty; any other input selects the first key containing it, and nothing iff none does or that key is empty (an empty key is falsy); a selected key is never empty |
| Investment.SelectByPosition | plugins/investment.js:83-99 | typing the number n selects the n-th company, or answers not found when its key is empty |
| Investment.SelectByName | plugins/investment.js:89-99 | typing a company's non-empty key selects that company or an earlier one whose key contains it |
| Investment.Put | plugins/investment.js:149-157 | after storing a holding under a key, that key maps to it and every other key is unchanged |
| Investment.ParseBuy | plugins/investment.js:111-123 | no text iff the text is empty; otherwise bad format iff the trimmed text is not exactly three words, and a request carries the lower-cased first word, the `parseInt` of the second and the duration read from the third |
| Investment.ParseBuyReadsWords | plugins/investment.js:115-123 | `name amount nd` is read as the lower-cased name, the amount and n days |
| Investment.SplitThreeWords | plugins/investment.js:115 | three words joined by spaces split back into the same three words |
| Investment.Buy | plugins/investment.js:107-164 | usage iff no text; wrong format iff not three words; unknown company iff the key is absent; invalid input iff amount <= 0 or the days are missing or outside 1..30; for a known company and a valid order: too low iff the amount is below the price, bought iff it is not and the balance covers floor(amount / price) shares, cannot afford otherwise; anything but a purchase leaves the ledger as initialised; a purchase changes only the sender's balance and shares; other users never change |
| Investment.Purchase | plugins/investment.js:135-157 | too low iff the amount is below one share; bought iff it is not and the balance covers floor(amount / price) * price, which is the cost reported on refusal; a refusal changes nothing; a purchase buys whole shares for at most the amount and less than one share short of it, leaves the balance non-negative, records the new holding under the company, keeps every other holding and user, and keeps every field of the sender's record other than balance and shares |
| Investment.BuyArithmetic | plugins/investment.js:135-157 | a purchase has quantity >= 1 and cost = quantity * price, with cost <= amount < cost + price; the balance drops by exactly the cost and stays >= 0; no field of the record but balance and shares changes; the company's holding is replaced and no other holding changes |
| Investment.BuyKeepsSolvent | plugins/investment.js:107-164 | buying never makes a balance or bank negative |
| Investment.PortfolioTotals | plugins/investment.js:181-199 | the loop's totals equal the sums of invested and current values over all holdings, and profit is their difference |
| Investment.Portfolio | plugins/investment.js:167-209 | an empty portfolio is reported iff there are no holdings; otherwise invested, current and profit are the holdings' sums |
| Investment.SumInvestedUpdate | plugins/investment.js:181-197 | replacing one holding changes the invested total by exactly the difference |
| Investment.SumCurrentUpdate | plugins/investment.js:181-197 | replacing one holding changes the current total by exactly the difference |
| Investment.PutTotals | plugins/investment.js:181-197 | storing a holding (lines 149-157) adds its amounts to the portfolio totals and removes those of the holding it replaces |
| Investment.BuyProfit | plugins/investment.js:199 | after a purchase (lines 149-157) the portfolio profit is the old profit minus the profit of the replaced holding |
| Intake.UnwrapOnce | index.js:112-114 | an ephemeral wrapper is removed exactly once; a doubly wrapped message yields an empty body |
| Intake.CommandOf | index.js:152 | a body without the prefix has an empty command; a command never contains a space |
| Intake.ArgsAreWords | index.js:153 | every argument is non-empty and has no space |
| Intake.ArgsKeepText | index.js:153 | the first word and the arguments together hold every non-space character of the trimmed body, in order |
| Intake.Tokenize | index.js:150-155 | `isCmd` iff the body starts with the prefix; `q` is the arguments joined by single spaces |
| Intake.TokenizeReadsCommand | index.js:150-155 | `prefix + word args...` is read as the lower-cased word with exactly those arguments |
| Intake.GroupIds | index.js:156 | a group id ends with "@g.us" and a user id does not |
| Intake.Sender | index.js:157 | own messages come from the bot id up to ':' plus "@s.whatsapp.net"; otherwise the participant, or the chat id when there is none |
| Intake.SenderNumber | index.js:158 | the number is the part of the sender before the first '@' |
| Intake.SenderNumberOfId | index.js:158 | the number of `n@server` is n |
| Intake.OwnMessagesFromBot | index.js:157-158 | own messages have the bot's number as their sender number |
| Intake.TargetNumber | index.js:217-218 | the target is made of digits only; it is the first argument unchanged when that is all digits, empty without arguments, and empty exactly when the first argument holds no digit |
| Intake.TargetNumberDropsLeader | index.js:217 | a number typed behind non-digit characters (`@2348...`, `+2348...`) is read as exactly its digits |
| Intake.AdminCommand | index.js:213-288 | only privileged senders run database commands; the first matching command in the order ban, unban, addprem/premium, delprem/unpremium, dbstats/databasestats, topusers/activeusers is selected; the number commands carry the non-empty digit-only target or else the empty-number reply; no command is selected iff none matches |
| Intake.ApplyAdmin | index.js:215-268 | ban adds and unban removes exactly the number from the banned set; premium grant and revoke do the same for the premium set; nothing else changes |
| Intake.Receive | index.js:109-288 | an empty message is dropped; a banned sender number stops the message; for any other message the admin action is exactly the one the command table selects, and the message goes to the plugins with its context iff no admin command is selected; the database changes only through an admin command |
| Intake.AdminDispatch | index.js:186-268 | a privileged, unbanned sender's admin command is applied to the database |
| Intake.BanRead | index.js:215-226 | `prefix + "dban " + n` is read as a ban of n |
| Intake.UnbanRead | index.js:229-240 | `prefix + "dunban " + n` is read as an unban of n |
| Intake.BanTakesEffect | index.js:215-226 | after a ban of n, every message from number n is stopped at the gate of lines 186-190 |
| Intake.UnbanTakesEffect | index.js:229-240 | after an unban of n, messages from number n pass the gate of lines 186-190 |
| Intake.Reconnects | index.js:33-38 | a close reconnects iff its status is not logged-out (401); a close with no status reconnects |
| Text.Utf16LengthOfBmp | plugins/attendance.js:207 | `.length` equals the number of characters iff none lies outside the Basic Multilingual Plane |
| Text.Utf16LengthAppend | plugins/attendance.js:207 | `.length` of a concatenation is the sum of the lengths |
| Text.TrimIsSlice | index.js:152-153 | trimming removes only white space, and only from the two ends: the result is a contiguous slice with white space on either side |
| Text.TrimIdempotent | index.js:152-153 | trimming twice equals trimming once |
| Text.JoinSplitOn | plugins/economy.js:47 | joining a split on a character gives back the original text |
| Text.SplitOnJoin | plugins/economy.js:47 | splitting a join of separator-free parts gives back the parts |
| Text.SplitRunsJoin | plugins/investment.js:115 | splitting on runs of white space undoes a join of non-empty words |
| Text.SplitRunsKeepsContent | index.js:153 | splitting on runs of white space keeps every other character, in order |
| Text.ParseShowInt | plugins/economy.js:52 | `parseInt` reads back every integer written in decimal |
| Text.ContainsSpec | plugins/investment.js:92 | `includes` holds iff the text occurs at some position |

## Left out

- Storage and the network are not modelled:
  - `database.js` is reduced to the banned and premium number sets. `Db` is `None` when the database is unreachable. `Database.isBanned` catches its own error and answers `false` (database.js:222-229), so the ban gate at index.js:186-190 lets the message through.
  - `addUser`, `addGroup` and `logMessage` are not modelled.
  - JSON file reads and writes, `sendMessage`, `readMessages`, `groupMetadata` and the plugin loader are not modelled; group metadata is an input.
- `plugins/main-alive.js` is not part of this model. It only checks the socket state and renders text.
- Clock and randomness are inputs:
  - Days are integers and `Date.now()` is milliseconds.
  - The lock date's formatting, and the "locked / days left" display in the portfolio, are not modelled.
  - `Math.random()` is an input: a coin flip and a roll in [0, 1).
- Reply texts and formatting are not modelled, only reply tags:
  - the balance command (economy.js:36-43);
  - `invest`, `investhelp` and the company list;
  - clan info;
  - `attendance` statistics (attendance.js:391-413);
  - `addadmin` (attendance.js:506-525);
  - `testattendance` (attendance.js:528-593);
  - `econconfig` (economy.js:192-195);
  - status auto-read and auto-react.
- Image detection (`hasImage`, attendance.js:106-145) is an input.
- The owner test (`isOwner`, `isMe`, index.js:161-162) and the creator list (`isCreator`, index.js:201-208) are reduced to the input `privileged`. As written, `('2348111637463', '2348089782988')` at index.js:203 is a comma expression, so `...jawadop` spreads the single digits of the second number into the creator list. That list then admits one-digit sender numbers, and `privileged` hides this.
- Attendance.SettingsCommand: the `!value` test (attendance.js:451, 469, 487, 493) is modelled by `HasValue`, so a missing or empty value is always refused. The numeric values for reward, image bonus, minimum length and multiplier arrive already parsed: JavaScript `isNaN`/`parseInt`/`parseFloat` parsing is not modelled, and the multiplier is a positive rational. As written, a value such as `Infinity`, `.5` or a lone tab passes `isNaN`, and `parseInt` then stores `NaN` into `rewardAmount`, `imageRewardBonus` or `minFieldLength` (lines 452, 470, 494). The model has no `NaN` setting and takes the parsed value as given.
- Economy.Send: the code's `isNaN(parts[2])` test uses `Number` coercion. The model uses the `parseInt` reading for both the test and the amount, so a text such as "12abc" counts as 12 instead of being refused.
- Economy.SendAsWritten: models neither direction of the gap between `isNaN` (`Number` coercion, economy.js:50) and `parseInt` (line 52). In one direction "12abc" is refused by the code and read as 12 here. In the other, an empty third word (two spaces before the amount), "Infinity" or ".5" passes `isNaN`, `parseInt` gives `NaN`, `balance < NaN` is false, and lines 56-57 write `NaN` into both balances. The model has no `NaN` balance and answers Usage there.
- Attendance.Mark: the branch where the economy file is absent (the reward is computed but not credited) is not modelled. The economy ledger is always present.
- Text.LowerStr: case folding covers `A`-`Z` and U+212A KELVIN SIGN (which `toLowerCase` turns into `k`), that is, every character that lower-cases to a single ASCII letter. Other non-ASCII letters are kept as they are. This is exact for comparisons against the code's ASCII keywords, but a company name with non-ASCII capitals is matched case-sensitively in those letters.
- Investment.Catalogue: the order of `Object.keys(companyData)` is the sequence order. `ValidCatalogue` (positive prices, unique keys) is assumed of the company file.
- Economy.ClanCommand: `clans` is never defined in economy.js, so the clan map is explicit state.
- Keys that collide with JavaScript object prototype properties are not modelled.
- Economy.Rob: floating-point rounding in `Math.floor(Math.random() * balance)` is abstracted to an integer in range. A stored cooldown of 0 (falsy in JavaScript) is treated like any other time.
- Text.ParseInt: `parseInt` on inputs beyond 2^53 loses precision in JavaScript; the model uses exact integers.
- Intake.Receive: the second `viewOnceMessageV2` unwrap (index.js:120-121) re-tests for an ephemeral wrapper that has already been removed. It is a no-op here, because the model's content has one level.
- Intake.Reconnects: index.js:35-37 reconnects immediately whenever the status is not logged-out; there is no retry counter or backoff. A close without an error object throws in JavaScript; the model treats it as "no reconnect".

## Findings

| source | as written | input that shows it | evidently intended | confidence | as-written member | corrected member |
|---|---|---|---|---|---|---|
| plugins/economy.js:50-57 | `send` refuses only when the balance is below the amount, so a negative amount passes and moves money from the recipient to the sender | `.send @user -500` from a sender with balance 0 to a user with balance 0 | refuse amounts <= 0, as `deposit` and `withdraw` do (economy.js:75, 90) | not executed | Economy.SendAsWritten (Economy.SendAsWrittenTakesFromRecipient, Economy.SendAsWrittenBreaksSolvency) | Economy.Send (Economy.SendNeverTakesFromRecipient, Economy.SendKeepsSolvent) |

=== FILE: attendance.dfy ===
/** The attendance plugin of `plugins/attendance.js`: recognising a "GIST HQ"
    attendance form in a chat message, checking that every field of it is
    filled in, keeping a per-user attendance record with a day streak, and
    paying a reward into the economy ledger once per day. Dates are day
    numbers; `today` is a parameter. */
module Attendance {
  import opened Maybe
  import opened Text
  import Economy

  type UserId = string

  // ---------------------------------------------------------------------
  // Attendance records
  // ---------------------------------------------------------------------

  datatype Record = Record(lastAttendance: Option<int>, totalAttendances: int, streak: int, longestStreak: int)

  type Book = map<UserId, Record>

  const NewRecord: Record := Record(None, 0, 0, 0)

  /** Creates the record of `u` unless it already exists. */
  function InitAttendanceUser(book: Book, u: UserId): (r: Book)
    ensures u in r && r.Keys == book.Keys + {u}
    ensures forall v :: v in book ==> r[v] == book[v]
    ensures u !in book ==> r[u].lastAttendance.None? && r[u].totalAttendances == 0
                           && r[u].streak == 0 && r[u].longestStreak == 0
  {
    if u in book then book else book[u := NewRecord]
  }

  lemma InitAttendanceUserIdempotent(book: Book, u: UserId)
    ensures InitAttendanceUser(InitAttendanceUser(book, u), u) == InitAttendanceUser(book, u)
  {
  }

  /** The invariant every record keeps: counters are non-negative and the
      longest streak is at least the current one. */
  predicate RecordValid(rec: Record) {
    0 <= rec.streak <= rec.longestStreak && rec.totalAttendances >= 0
  }

  // ---------------------------------------------------------------------
  // Settings
  // ---------------------------------------------------------------------

  type Positive = n: int | n > 0 witness 1

  /** A multiplier `num / den`. */
  datatype Ratio = Ratio(num: int, den: Positive)

  datatype Settings = Settings(
    rewardAmount: int, requireImage: bool, imageRewardBonus: int,
    minFieldLength: int, enableStreakBonus: bool, streakBonusMultiplier: Ratio)

  const DefaultSettings: Settings := Settings(500, false, 200, 2, true, Ratio(3, 2))

  // ---------------------------------------------------------------------
  // Who may change the settings
  // ---------------------------------------------------------------------

  const AdminNumbers: seq<UserId> := ["2348111637463@s.whatsapp.net", "2348087654321@s.whatsapp.net"]

  datatype Participant = Participant(id: UserId, admin: Option<string>)

  predicate IsAdminRole(role: Option<string>) {
    role == Some("admin") || role == Some("superadmin")
  }

  /** The ids of the participants whose role is admin or superadmin. */
  function GroupAdmins(ps: seq<Participant>): (r: seq<UserId>)
    ensures forall id :: id in r <==> exists p :: p in ps && p.id == id && IsAdminRole(p.admin)
  {
    if ps == [] then []
    else
      var rest := GroupAdmins(ps[1..]);
      assert forall p :: p in ps <==> p == ps[0] || p in ps[1..];
      if IsAdminRole(ps[0].admin) then [ps[0].id] + rest else rest
  }

  /** `isAuthorized`: listed admins always, group admins only inside a group.
      `metadata` is the participant list the metadata request returned, or
      `None` when the request failed. */
  function IsAuthorized(from: string, sender: UserId, metadata: Option<seq<Participant>>): (r: bool)
    ensures r <==> (sender in AdminNumbers
                    || (EndsWith(from, "@g.us") && metadata.Some?
                        && exists p :: p in metadata.value && p.id == sender && IsAdminRole(p.admin)))
  {
    if sender in AdminNumbers then true
    else if EndsWith(from, "@g.us") then
      match metadata
      case None => false
      case Some(ps) => sender in GroupAdmins(ps)
    else false
  }

  // ---------------------------------------------------------------------
  // Image status
  // ---------------------------------------------------------------------

  datatype ImageStatus = ImageRequiredButMissing | ImageDetected | ImageOptional

  function GetImageStatus(hasImg: bool, isRequired: bool): (r: ImageStatus)
    ensures r == ImageRequiredButMissing <==> isRequired && !hasImg
    ensures r == ImageDetected <==> hasImg
    ensures r == ImageOptional <==> !hasImg && !isRequired
  {
    if isRequired && !hasImg then ImageRequiredButMissing
    else if hasImg then ImageDetected
    else ImageOptional
  }

  // ---------------------------------------------------------------------
  // Form recognition
  // ---------------------------------------------------------------------

  /** `<word>[:*]`, case-insensitive. */
  function Label(word: string): (p: Pattern)
    ensures |p| == |word| + 1
  {
    Lit(word) + [[':', '*']]
  }

  const NameLabel: Pattern := Label("Name")
  const RelationshipLabel: Pattern := Label("Relationship")

  const Gist: Pattern := Lit("GIST")
  const Hq: Pattern := Lit("HQ")

  /** The header words, letter by letter, in either case. */
  lemma HeaderLetters()
    ensures Gist == [['g', 'G'], ['i', 'I'], ['s', 'S'], ['t', 'T']]
    ensures Hq == [['h', 'H'], ['q', 'Q']]
  {
  }

  /** `GIST\s+HQ` matches at `i`. */
  predicate HeaderAt(s: string, i: nat) {
    && MatchesAt(s, Gist, i)
    && var n := Span(s, i + 4, IsSpace);
       n >= 1 && MatchesAt(s, Hq, i + 4 + n)
  }

  /** Where the header match starting at `i` ends. */
  function HeaderEnd(s: string, i: nat): (e: nat)
    requires HeaderAt(s, i)
    ensures i + 7 <= e <= |s|
  {
    i + 4 + Span(s, i + 4, IsSpace) + 2
  }

  /** The leftmost header match at or after `from`. */
  function FindHeader(s: string, from: nat): (r: Option<nat>)
    ensures r.Some? ==> from <= r.value && HeaderAt(s, r.value)
    ensures r.Some? ==> forall k :: from <= k < r.value ==> !HeaderAt(s, k)
    ensures r.None? ==> forall k :: from <= k ==> !HeaderAt(s, k)
    decreases |s| - from
  {
    if from + 4 > |s| then None
    else if HeaderAt(s, from) then Some(from)
    else FindHeader(s, from + 1)
  }

  /** No two header matches overlap: a later one starts after the earlier ends. */
  lemma HeadersDoNotOverlap(s: string, i: nat, j: nat)
    requires HeaderAt(s, i) && HeaderAt(s, j) && i < j
    ensures HeaderEnd(s, i) <= j
  {
    HeaderLetters();
    var n := Span(s, i + 4, IsSpace);
    assert s[j] == 'g' || s[j] == 'G' by {
      assert s[j + 0] in Gist[0];
    }
    assert j != i + 1 && j != i + 2 && j != i + 3 by {
      assert s[i + 1] in Gist[1] && s[i + 2] in Gist[2] && s[i + 3] in Gist[3];
    }
    assert !(i + 4 <= j < i + 4 + n) by {
      assert forall k :: i + 4 <= k < i + 4 + n ==> IsSpace(s[k]);
    }
    assert j != i + 4 + n && j != i + 5 + n by {
      assert s[i + 4 + n + 0] in Hq[0] && s[i + 4 + n + 1] in Hq[1];
    }
  }

  /** The handler's detector `/GIST\s+HQ.*?Name[:*].*?Relationship[:*]/is`:
      the header, then a `Name` label, then a `Relationship` label, in that
      order and without overlap. */
  predicate FormDetected(body: string) {
    match FindHeader(body, 0)
    case None => false
    case Some(i) =>
      match FindFrom(body, NameLabel, HeaderEnd(body, i))
      case None => false
      case Some(j) => FindFrom(body, RelationshipLabel, j + |NameLabel|).Some?
  }

  /** The three anchors of the detector, in order and without overlap. */
  predicate FormAnchors(body: string, i: nat, j: nat, k: nat) {
    && HeaderAt(body, i) && HeaderEnd(body, i) <= j
    && MatchesAt(body, NameLabel, j) && j + |NameLabel| <= k
    && MatchesAt(body, RelationshipLabel, k)
  }

  lemma FormDetectedSpec(body: string)
    ensures FormDetected(body) <==> exists i: nat, j: nat, k: nat :: FormAnchors(body, i, j, k)
  {
    if FormDetected(body) {
      var i, j, k := FormDetectedAnchors(body);
    }
    if exists i: nat, j: nat, k: nat :: FormAnchors(body, i, j, k) {
      var i: nat, j: nat, k: nat :| FormAnchors(body, i, j, k);
      AnchorsDetected(body, i, j, k);
    }
  }

  /** A detected form has its anchors where the searches found them. */
  lemma FormDetectedAnchors(body: string) returns (i: nat, j: nat, k: nat)
    requires FormDetected(body)
    ensures FormAnchors(body, i, j, k)
  {
    i := FindHeader(body, 0).value;
    j := FindFrom(body, NameLabel, HeaderEnd(body, i)).value;
    k := FindFrom(body, RelationshipLabel, j + |NameLabel|).value;
  }

  /** Any anchors at all make the leftmost searches succeed. */
  lemma AnchorsDetected(body: string, i: nat, j: nat, k: nat)
    requires FormAnchors(body, i, j, k)
    ensures FormDetected(body)
  {
    var i0 := FindHeader(body, 0).value;
    assert i0 <= i;
    if i0 < i {
      HeadersDoNotOverlap(body, i0, i);
    }
    var e0 := HeaderEnd(body, i0);
    assert e0 <= j;
    var j0 := FindFrom(body, NameLabel, e0).value;
    assert j0 <= j;
    assert FindFrom(body, RelationshipLabel, j0 + |NameLabel|).Some?;
  }

  // ---------------------------------------------------------------------
  // Field capture
  // ---------------------------------------------------------------------

  /** The last position in `[lo, hi)` holding a character other than a line
      terminator. */
  function LastNonTerminator(s: string, lo: nat, hi: nat): (r: Option<nat>)
    requires lo <= hi <= |s|
    ensures r.Some? ==> lo <= r.value < hi && !IsLineTerminator(s[r.value])
    ensures r.None? ==> forall k :: lo <= k < hi ==> IsLineTerminator(s[k])
    decreases hi - lo
  {
    if lo == hi then None
    else if !IsLineTerminator(s[hi - 1]) then Some(hi - 1)
    else LastNonTerminator(s, lo, hi - 1)
  }

  /** The rest of the line from `j`: up to the next line terminator. */
  function RestOfLine(s: string, j: nat): (r: string)
    requires j <= |s|
    ensures forall k :: 0 <= k < |r| ==> !IsLineTerminator(r[k])
    ensures j < |s| && !IsLineTerminator(s[j]) ==> r != [] && r[0] == s[j]
  {
    var n := Span(s, j, Negate(IsLineTerminator));
    var r := s[j..j + n];
    assert forall k :: 0 <= k < |r| ==> r[k] == s[j + k];
    r
  }

  /** `\s*(.+)` from `start`: `\s*` first takes the whole whitespace run,
      which may cross line breaks, and `.+` the rest of the line it reaches.
      When only whitespace is left, the engine backtracks and `.+` takes the
      last whitespace character that is not a line terminator, if any. */
  function CaptureAfter(body: string, start: nat): (r: Option<string>)
    requires start <= |body|
    ensures r.Some? ==> r.value != [] && forall k :: 0 <= k < |r.value| ==> !IsLineTerminator(r.value[k])
  {
    var j := start + Span(body, start, IsSpace);
    if j < |body| then
      assert !IsSpace(body[j]);
      Some(RestOfLine(body, j))
    else
      match LastNonTerminator(body, start, |body|)
      case None => None
      case Some(k) => Some([body[k]])
  }

  /** Group 1 of `body.match(/<label>\s*(.+)/i)`. The first label occurrence
      decides: if the rest fails there, it fails at every later occurrence too,
      since those would have to lie in the trailing whitespace. */
  function Capture(body: string, p: Pattern): (r: Option<string>)
    ensures r.Some? ==> r.value != [] && forall k :: 0 <= k < |r.value| ==> !IsLineTerminator(r.value[k])
    ensures FindFrom(body, p, 0).None? ==> r.None?
  {
    match FindFrom(body, p, 0)
    case None => None
    case Some(i) => CaptureAfter(body, i + |p|)
  }

  /** The source's test on a capture: no match, or trimmed content that is
      empty or whose `.length` (in UTF-16 code units) is below `minLen`. */
  predicate FieldIsMissing(body: string, p: Pattern, minLen: int) {
    CaptureIsMissing(Capture(body, p), minLen)
  }

  predicate CaptureIsMissing(c: Option<string>, minLen: int) {
    match c
    case None => true
    case Some(c) => Trim(c) == [] || Utf16Length(Trim(c)) < minLen
  }

  /** What the author wrote from `start`: the line reached after skipping all
      whitespace. */
  function WrittenAfter(body: string, start: nat): string
    requires start <= |body|
  {
    RestOfLine(body, start + Span(body, start, IsSpace))
  }

  lemma TrimOfSpace(c: char)
    requires IsSpace(c)
    ensures Trim([c]) == []
  {
  }

  /** A field counts as missing exactly when its label does not occur, or
      what is written after the first occurrence, once trimmed, is shorter
      than `max(minLen, 1)` UTF-16 code units. */
  lemma {:induction false} FieldIsMissingSpec(body: string, p: Pattern, minLen: int)
    ensures FindFrom(body, p, 0).None? ==> FieldIsMissing(body, p, minLen)
    ensures FindFrom(body, p, 0).Some? ==>
      && FindFrom(body, p, 0).value + |p| <= |body|
      && (FieldIsMissing(body, p, minLen) <==>
            Utf16Length(Trim(WrittenAfter(body, FindFrom(body, p, 0).value + |p|))) < (if minLen < 1 then 1 else minLen))
  {
    var f := FindFrom(body, p, 0);
    if f.Some? {
      FieldIsMissingAt(body, p, minLen, f.value);
    } else {
      FieldIsMissingWithoutLabel(body, p, minLen);
    }
  }

  lemma {:induction false} FieldIsMissingWithoutLabel(body: string, p: Pattern, minLen: int)
    requires FindFrom(body, p, 0).None?
    ensures FieldIsMissing(body, p, minLen)
  {
    assert Capture(body, p).None?;
  }

  lemma {:induction false} FieldIsMissingAt(body: string, p: Pattern, minLen: int, i: nat)
    requires FindFrom(body, p, 0) == Some(i)
    ensures i + |p| <= |body|
    ensures FieldIsMissing(body, p, minLen) <==>
            Utf16Length(Trim(WrittenAfter(body, i + |p|))) < (if minLen < 1 then 1 else minLen)
  {
    CaptureAt(body, p, i);
    MissingAfter(body, i + |p|, minLen);
  }

  /** The capture is taken right after the first label occurrence. */
  lemma {:induction false} CaptureAt(body: string, p: Pattern, i: nat)
    requires FindFrom(body, p, 0) == Some(i)
    ensures i + |p| <= |body|
    ensures Capture(body, p) == CaptureAfter(body, i + |p|)
  {
    assert MatchesAt(body, p, i);
  }

  /** The same test for a capture starting at `start`. */
  lemma {:induction false} MissingAfter(body: string, start: nat, minLen: int)
    requires start <= |body|
    ensures CaptureIsMissing(CaptureAfter(body, start), minLen) <==>
            Utf16Length(Trim(WrittenAfter(body, start))) < (if minLen < 1 then 1 else minLen)
  {
    if start + Span(body, start, IsSpace) == |body| {
      CaptureOfBlank(body, start);
    } else {
      CaptureOfContent(body, start);
    }
  }

  /** Length is JavaScript's: a single emoji is two code units long, so with
      the default minimum of 2 it fills a field on its own. */
  lemma OneEmojiFillsField()
    ensures Utf16Length("\U{1F60A}") == 2
    ensures !CaptureIsMissing(Some("\U{1F60A}"), DefaultSettings.minFieldLength)
  {
    var w := "\U{1F60A}";
    assert !IsSpace(w[0]);
    TrimStartsAtFirstNonSpace(w);
    assert Trim(w) == w;
  }

  /** When only whitespace is left, the capture trims to nothing. */
  lemma CaptureOfBlank(body: string, start: nat)
    requires start <= |body| && start + Span(body, start, IsSpace) == |body|
    ensures WrittenAfter(body, start) == []
    ensures CaptureAfter(body, start).None? || Trim(CaptureAfter(body, start).value) == []
  {
    match LastNonTerminator(body, start, |body|)
    case None =>
    case Some(k) =>
      assert IsSpace(body[k]);
      TrimOfSpace(body[k]);
  }

  /** When something other than whitespace is left, the capture is the
      written line, and it does not trim to nothing. */
  lemma CaptureOfContent(body: string, start: nat)
    requires start <= |body| && start + Span(body, start, IsSpace) < |body|
    ensures CaptureAfter(body, start) == Some(WrittenAfter(body, start))
    ensures Trim(WrittenAfter(body, start)) != []
  {
    var j := start + Span(body, start, IsSpace);
    var w := WrittenAfter(body, start);
    assert !IsSpace(body[j]);
    assert w != [] && !IsSpace(w[0]);
    TrimStartsAtFirstNonSpace(w);
  }

  /** Trimming keeps a string that starts with a non-space character non-empty. */
  lemma TrimStartsAtFirstNonSpace(w: string)
    requires w != [] && !IsSpace(w[0])
    ensures Trim(w) != []
  {
    assert Span(w, 0, IsSpace) == 0;
    assert w[0..] == w;
    assert TrailingSpaces(w) < |w|;
  }

  // ---------------------------------------------------------------------
  // Form validation
  // ---------------------------------------------------------------------

  datatype Field = Field(name: string, pattern: Pattern)

  const RequiredFields: seq<Field> := [
    Field("Name", Label("Name")),
    Field("Location", Label("Location")),
    Field("Time", Label("Time")),
    Field("Weather", Label("Weather")),
    Field("Mood", Label("Mood")),
    Field("D.O.B", Label("D.O.B")),
    Field("Relationship", Label("Relationship"))
  ]

  /** `1[:]`, `2[:]`, `3[:]`. */
  const WakeUpSlots: seq<Field> := [
    Field("1:", Exact("1:")),
    Field("2:", Exact("2:")),
    Field("3:", Exact("3:"))
  ]

  datatype Missing = ImageRequired | MissingField(name: string) | MissingWakeUps(slots: seq<string>)

  datatype FormError = InvalidFormat

  datatype Validation = Validation(
    isValidForm: bool, missingFields: seq<Missing>, hasWakeUpMembers: bool,
    hasImage: bool, imageRequired: bool, errors: seq<FormError>)

  /** The names of the fields found missing, in field order. */
  function MissingNames(body: string, fields: seq<Field>, minLen: int): (r: seq<string>)
    ensures |r| <= |fields|
    ensures forall n :: n in r <==>
      exists i :: 0 <= i < |fields| && fields[i].name == n && FieldIsMissing(body, fields[i].pattern, minLen)
  {
    if fields == [] then []
    else
      var rest := MissingNames(body, fields[1..], minLen);
      assert forall i :: 1 <= i < |fields| ==> fields[i] == fields[1..][i - 1];
      if FieldIsMissing(body, fields[0].pattern, minLen) then [fields[0].name] + rest else rest
  }

  function AsMissingFields(names: seq<string>): (r: seq<Missing>)
    ensures |r| == |names|
    ensures forall k :: 0 <= k < |r| ==> r[k] == MissingField(names[k])
    ensures forall m :: m in r <==> m.MissingField? && m.name in names
  {
    var r := seq(|names|, k requires 0 <= k < |names| => MissingField(names[k]));
    assert forall m: Missing :: m.MissingField? && m.name in names ==> m in r by {
      forall m: Missing | m.MissingField? && m.name in names ensures m in r {
        var k :| 0 <= k < |names| && names[k] == m.name;
        assert r[k] == m;
      }
    }
    r
  }

  /** The three markers the validator looks for first, anywhere in the body. */
  predicate HasFormMarkers(body: string) {
    FindHeader(body, 0).Some? && FindFrom(body, NameLabel, 0).Some?
    && FindFrom(body, RelationshipLabel, 0).Some?
  }

  /** `validateAttendanceForm(body, hasImg)` under settings `s`. */
  function Validate(body: string, hasImg: bool, s: Settings): (v: Validation)
    ensures v.hasImage == hasImg && v.imageRequired == s.requireImage
    ensures !HasFormMarkers(body) ==>
      !v.isValidForm && v.missingFields == [] && |v.errors| == 1 && !v.hasWakeUpMembers
    ensures HasFormMarkers(body) ==> v.errors == []
    ensures v.isValidForm <==> HasFormMarkers(body) && v.missingFields == []
    ensures s.requireImage && !hasImg ==> !v.isValidForm
  {
    if !HasFormMarkers(body) then
      Validation(false, [], false, hasImg, s.requireImage, [InvalidFormat])
    else
      var missing := MissingEntries(body, hasImg, s);
      var slots := MissingNames(body, WakeUpSlots, s.minFieldLength);
      Validation(missing == [], missing, slots == [], hasImg, s.requireImage, [])
  }

  /** The image entry, the missing fields, then one entry for the wake-up
      slots, in the order the source pushes them. Nothing else is listed: the
      image entry appears exactly when a required image is absent, and a
      field entry only for one of the seven fields that is missing. */
  function MissingEntries(body: string, hasImg: bool, s: Settings): (r: seq<Missing>)
    ensures s.requireImage && !hasImg ==> r != [] && r[0] == ImageRequired
    ensures ImageRequired in r <==> s.requireImage && !hasImg
    ensures forall m :: m in r ==>
      || m == ImageRequired
      || m.MissingWakeUps?
      || (m.MissingField? && exists i :: 0 <= i < |RequiredFields| && RequiredFields[i].name == m.name
                                         && FieldIsMissing(body, RequiredFields[i].pattern, s.minFieldLength))
  {
    Entries(s.requireImage && !hasImg, MissingNames(body, RequiredFields, s.minFieldLength),
            MissingNames(body, WakeUpSlots, s.minFieldLength))
  }

  /** The list of missing entries, from what was found missing. */
  function Entries(image: bool, names: seq<string>, slots: seq<string>): (r: seq<Missing>)
    ensures image ==> r != [] && r[0] == ImageRequired
    ensures ImageRequired in r <==> image
    ensures forall m :: m in r ==> m == ImageRequired || m.MissingWakeUps? || (m.MissingField? && m.name in names)
  {
    (if image then [ImageRequired] else []) + AsMissingFields(names)
      + (if slots == [] then [] else [MissingWakeUps(slots)])
  }

  lemma EntriesWakeUpLast(image: bool, names: seq<string>, slots: seq<string>)
    ensures var r := Entries(image, names, slots);
      && (slots == [] ==> forall k :: 0 <= k < |r| ==> !r[k].MissingWakeUps?)
      && (slots != [] ==> r != [] && r[|r| - 1] == MissingWakeUps(slots)
                          && forall k :: 0 <= k < |r| - 1 ==> !r[k].MissingWakeUps?)
  {
    var prefix := (if image then [ImageRequired] else []) + AsMissingFields(names);
    assert forall k :: 0 <= k < |prefix| ==> !prefix[k].MissingWakeUps? by {
      assert forall m :: m in prefix ==> m == ImageRequired || m.MissingField?;
    }
  }

  predicate DistinctNames(fields: seq<Field>) {
    forall i, j :: 0 <= i < j < |fields| ==> fields[i].name != fields[j].name
  }

  lemma FieldNamesDistinct()
    ensures DistinctNames(RequiredFields) && DistinctNames(WakeUpSlots)
  {
  }

  /** With distinct names, a name is listed exactly when its field is missing. */
  lemma MissingNamesExact(body: string, fields: seq<Field>, minLen: int, i: int)
    requires DistinctNames(fields) && 0 <= i < |fields|
    ensures fields[i].name in MissingNames(body, fields, minLen) <==>
            FieldIsMissing(body, fields[i].pattern, minLen)
  {
  }

  /** Each of the seven fields is reported exactly when it is missing. */
  lemma ValidateReportsFields(body: string, hasImg: bool, s: Settings, i: int)
    requires HasFormMarkers(body) && 0 <= i < |RequiredFields|
    ensures MissingField(RequiredFields[i].name) in Validate(body, hasImg, s).missingFields <==>
            FieldIsMissing(body, RequiredFields[i].pattern, s.minFieldLength)
  {
    FieldNamesDistinct();
    var names := MissingNames(body, RequiredFields, s.minFieldLength);
    MissingNamesExact(body, RequiredFields, s.minFieldLength, i);
    var image: seq<Missing> := if s.requireImage && !hasImg then [ImageRequired] else [];
    var fields := AsMissingFields(names);
    var slots := MissingNames(body, WakeUpSlots, s.minFieldLength);
    var wake: seq<Missing> := if slots == [] then [] else [MissingWakeUps(slots)];
    var m := MissingField(RequiredFields[i].name);
    assert Validate(body, hasImg, s).missingFields == image + fields + wake;
    assert m in image + fields + wake <==> m in fields;
  }

  /** A form is approved exactly when the three markers are there, a
      required image is attached, and none of the seven fields and none of
      the three wake-up slots is missing. */
  lemma CompleteFormApproved(body: string, hasImg: bool, s: Settings)
    ensures Validate(body, hasImg, s).isValidForm <==>
      && HasFormMarkers(body)
      && (hasImg || !s.requireImage)
      && (forall i :: 0 <= i < |RequiredFields| ==> !FieldIsMissing(body, RequiredFields[i].pattern, s.minFieldLength))
      && (forall i :: 0 <= i < |WakeUpSlots| ==> !FieldIsMissing(body, WakeUpSlots[i].pattern, s.minFieldLength))
  {
    NoneMissing(body, RequiredFields, s.minFieldLength);
    NoneMissing(body, WakeUpSlots, s.minFieldLength);
    if HasFormMarkers(body) {
      var names := MissingNames(body, RequiredFields, s.minFieldLength);
      var slots := MissingNames(body, WakeUpSlots, s.minFieldLength);
      var r := MissingEntries(body, hasImg, s);
      assert r == Entries(s.requireImage && !hasImg, names, slots);
      assert |AsMissingFields(names)| == |names|;
      assert r == [] <==> (!(s.requireImage && !hasImg) && names == [] && slots == []);
    }
  }

  /** The wake-up members are complete exactly when none of the three slots is
      missing; otherwise the last entry, and only it, lists the missing slots. */
  lemma ValidateReportsWakeUps(body: string, hasImg: bool, s: Settings)
    requires HasFormMarkers(body)
    ensures var v := Validate(body, hasImg, s);
      && (v.hasWakeUpMembers <==>
            forall i :: 0 <= i < |WakeUpSlots| ==> !FieldIsMissing(body, WakeUpSlots[i].pattern, s.minFieldLength))
      && (v.hasWakeUpMembers ==> forall k :: 0 <= k < |v.missingFields| ==> !v.missingFields[k].MissingWakeUps?)
      && (!v.hasWakeUpMembers ==>
            var last := |v.missingFields| - 1;
            && last >= 0 && v.missingFields[last].MissingWakeUps?
            && (forall k :: 0 <= k < last ==> !v.missingFields[k].MissingWakeUps?)
            && (forall i :: 0 <= i < |WakeUpSlots| ==>
                  (WakeUpSlots[i].name in v.missingFields[last].slots <==>
                     FieldIsMissing(body, WakeUpSlots[i].pattern, s.minFieldLength))))
  {
    var v := Validate(body, hasImg, s);
    var slots := MissingNames(body, WakeUpSlots, s.minFieldLength);
    assert v == Validation(MissingEntries(body, hasImg, s) == [], MissingEntries(body, hasImg, s),
                           slots == [], hasImg, s.requireImage, []);
    WakeUpEntryLast(body, hasImg, s);
    WakeUpSlotsExact(body, s.minFieldLength);
    NoneMissing(body, WakeUpSlots, s.minFieldLength);
  }

  /** No name is listed exactly when no field is missing. */
  lemma NoneMissing(body: string, fields: seq<Field>, minLen: int)
    ensures MissingNames(body, fields, minLen) == [] <==>
      forall i :: 0 <= i < |fields| ==> !FieldIsMissing(body, fields[i].pattern, minLen)
  {
    var r := MissingNames(body, fields, minLen);
    if r == [] {
      forall i | 0 <= i < |fields| ensures !FieldIsMissing(body, fields[i].pattern, minLen) {
        assert fields[i].name !in r;
      }
    } else {
      assert r[0] in r;
      var i :| 0 <= i < |fields| && fields[i].name == r[0] && FieldIsMissing(body, fields[i].pattern, minLen);
    }
  }

  /** Only the last entry can be the wake-up entry, and it is there exactly
      when some slot is missing. */
  lemma WakeUpEntryLast(body: string, hasImg: bool, s: Settings)
    ensures var r := MissingEntries(body, hasImg, s);
      var slots := MissingNames(body, WakeUpSlots, s.minFieldLength);
      && (slots == [] ==> forall k :: 0 <= k < |r| ==> !r[k].MissingWakeUps?)
      && (slots != [] ==> r != [] && r[|r| - 1] == MissingWakeUps(slots)
                          && forall k :: 0 <= k < |r| - 1 ==> !r[k].MissingWakeUps?)
  {
    EntriesWakeUpLast(s.requireImage && !hasImg, MissingNames(body, RequiredFields, s.minFieldLength),
                      MissingNames(body, WakeUpSlots, s.minFieldLength));
  }

  lemma WakeUpSlotsExact(body: string, minLen: int)
    ensures forall i :: 0 <= i < |WakeUpSlots| ==>
      (WakeUpSlots[i].name in MissingNames(body, WakeUpSlots, minLen) <==>
         FieldIsMissing(body, WakeUpSlots[i].pattern, minLen))
  {
    FieldNamesDistinct();
    forall i | 0 <= i < |WakeUpSlots|
      ensures WakeUpSlots[i].name in MissingNames(body, WakeUpSlots, minLen) <==>
              FieldIsMissing(body, WakeUpSlots[i].pattern, minLen)
    {
      MissingNamesExact(body, WakeUpSlots, minLen, i);
    }
  }

  // ---------------------------------------------------------------------
  // Streak and reward
  // ---------------------------------------------------------------------

  /** `updateStreak`: continue after yesterday, keep on the same day, restart
      otherwise; the longest streak follows the current one upwards. */
  function UpdateStreak(rec: Record, today: int): (r: Record)
    ensures rec.lastAttendance == Some(today - 1) ==> r.streak == rec.streak + 1
    ensures rec.lastAttendance == Some(today) ==> r.streak == rec.streak
    ensures rec.lastAttendance != Some(today - 1) && rec.lastAttendance != Some(today) ==> r.streak == 1
    ensures r.longestStreak >= r.streak && r.longestStreak >= rec.longestStreak
    ensures r.longestStreak == r.streak || r.longestStreak == rec.longestStreak
    ensures r.lastAttendance == rec.lastAttendance && r.totalAttendances == rec.totalAttendances
  {
    var streak :=
      if rec.lastAttendance == Some(today - 1) then rec.streak + 1
      else if rec.lastAttendance != Some(today) then 1
      else rec.streak;
    var longest := if streak > rec.longestStreak then streak else rec.longestStreak;
    rec.(streak := streak, longestStreak := longest)
  }

  /** A streak update keeps a valid record valid. */
  lemma UpdateStreakKeepsValid(rec: Record, today: int)
    requires RecordValid(rec)
    ensures RecordValid(UpdateStreak(rec, today))
  {
  }

  /** The base reward plus the image bonus when an image is present and the
      bonus is positive. */
  function BaseReward(s: Settings, hasImg: bool): int {
    s.rewardAmount + (if hasImg && s.imageRewardBonus > 0 then s.imageRewardBonus else 0)
  }

  /** The reward paid for an approved form: on a streak of 3 or more with the
      streak bonus on, the base reward times the multiplier, rounded down. */
  function Reward(s: Settings, hasImg: bool, streak: int): (r: int)
    ensures !(s.enableStreakBonus && streak >= 3) ==> r == BaseReward(s, hasImg)
    ensures s.enableStreakBonus && streak >= 3 ==>
      var m := s.streakBonusMultiplier;
      r * m.den <= BaseReward(s, hasImg) * m.num < (r + 1) * m.den
  {
    var base := BaseReward(s, hasImg);
    if s.enableStreakBonus && streak >= 3 then
      var m := s.streakBonusMultiplier;
      var x := base * m.num;
      assert x == m.den * (x / m.den) + x % m.den;
      x / m.den
    else base
  }

  /** With the default settings a three-day streak turns 500 into 750, and
      700 with an image into 1050. */
  lemma DefaultRewards()
    ensures Reward(DefaultSettings, false, 3) == 750
    ensures Reward(DefaultSettings, true, 3) == 1050
    ensures Reward(DefaultSettings, true, 2) == 700
  {
  }

  // ---------------------------------------------------------------------
  // The form handler
  // ---------------------------------------------------------------------

  datatype Outcome =
    | NotAForm
    | AlreadyMarked
    | Incomplete(missing: seq<Missing>)
    | Approved(streak: int, reward: int, image: ImageStatus)

  datatype Step = Step(outcome: Outcome, book: Book, eco: Economy.Ledger)

  /** What the handler does with a detected form once the sender has a
      record (`b0`), given the validation `v` of the body: turn away a
      second form on the same day, report an incomplete form, or count the
      attendance, extend the streak and pay the reward. */
  function Mark(b0: Book, eco: Economy.Ledger, s: Settings, sender: UserId,
                v: Validation, hasImg: bool, today: int): (st: Step)
    requires sender in b0
    ensures st.book.Keys == b0.Keys
    ensures forall u :: u in b0 && u != sender ==> st.book[u] == b0[u]
    ensures st.outcome == AlreadyMarked <==> b0[sender].lastAttendance == Some(today)
    ensures st.outcome == AlreadyMarked ==> st.book == b0 && st.eco == eco
    ensures st.outcome.Incomplete? ==> st.book == b0 && st.eco == eco && st.outcome.missing == v.missingFields
    ensures st.outcome.Approved? <==> b0[sender].lastAttendance != Some(today) && v.isValidForm
    ensures !st.outcome.NotAForm?
    ensures st.outcome.Approved? ==>
      var e0 := Economy.InitUser(eco, sender);
      && st.book[sender].totalAttendances == b0[sender].totalAttendances + 1
      && st.book[sender].lastAttendance == Some(today)
      && st.book[sender].streak == st.outcome.streak
      && st.outcome.streak == (if b0[sender].lastAttendance == Some(today - 1)
                               then b0[sender].streak + 1 else 1)
      && st.book[sender].longestStreak ==
           (if st.outcome.streak > b0[sender].longestStreak then st.outcome.streak
            else b0[sender].longestStreak)
      && st.outcome.reward == Reward(s, hasImg, st.outcome.streak)
      && st.outcome.image == GetImageStatus(hasImg, s.requireImage)
      && st.eco.Keys == e0.Keys
      && st.eco[sender] == e0[sender].(balance := e0[sender].balance + st.outcome.reward)
      && (forall u :: u in e0 && u != sender ==> st.eco[u] == e0[u])
  {
    if b0[sender].lastAttendance == Some(today) then Step(AlreadyMarked, b0, eco)
    else if !v.isValidForm then Step(Incomplete(v.missingFields), b0, eco)
    else
      var rec := UpdateStreak(b0[sender], today);
      var rec' := rec.(lastAttendance := Some(today), totalAttendances := rec.totalAttendances + 1);
      var reward := Reward(s, hasImg, rec'.streak);
      var e0 := Economy.InitUser(eco, sender);
      Step(Approved(rec'.streak, reward, GetImageStatus(hasImg, s.requireImage)),
           b0[sender := rec'], Economy.Credit(e0, sender, reward))
  }

  /** The `on: 'body'` handler for a message from `sender` on day `today`:
      anything that is not an attendance form is ignored; a form gives the
      sender a record and is then marked against its validation. */
  function OnBody(book: Book, eco: Economy.Ledger, s: Settings, sender: UserId,
                  body: string, hasImg: bool, today: int): (st: Step)
    ensures st.outcome == NotAForm <==> !FormDetected(body)
    ensures !FormDetected(body) ==> st.book == book && st.eco == eco
    ensures FormDetected(body) ==> st.book.Keys == book.Keys + {sender}
    ensures forall u :: u in book && u != sender ==> st.book[u] == book[u]
  {
    if !FormDetected(body) then Step(NotAForm, book, eco)
    else Mark(InitAttendanceUser(book, sender), eco, s, sender, Validate(body, hasImg, s), hasImg, today)
  }

  /** A second form on the same day is turned away and changes nothing. */
  lemma AttendanceOncePerDay(book: Book, eco: Economy.Ledger, s: Settings, sender: UserId,
                             body: string, hasImg: bool, body2: string, hasImg2: bool, today: int)
    requires OnBody(book, eco, s, sender, body, hasImg, today).outcome.Approved?
    requires FormDetected(body2)
    ensures var st := OnBody(book, eco, s, sender, body, hasImg, today);
      OnBody(st.book, st.eco, s, sender, body2, hasImg2, today) == Step(AlreadyMarked, st.book, st.eco)
  {
    var st := Mark(InitAttendanceUser(book, sender), eco, s, sender, Validate(body, hasImg, s), hasImg, today);
    assert st == OnBody(book, eco, s, sender, body, hasImg, today);
    assert st.book[sender].lastAttendance == Some(today);
    assert InitAttendanceUser(st.book, sender) == st.book;
    var st2 := Mark(st.book, st.eco, s, sender, Validate(body2, hasImg2, s), hasImg2, today);
    assert st2 == OnBody(st.book, st.eco, s, sender, body2, hasImg2, today);
  }

  /** The handler keeps every record valid. */
  lemma OnBodyKeepsRecordsValid(book: Book, eco: Economy.Ledger, s: Settings, sender: UserId,
                                body: string, hasImg: bool, today: int)
    requires forall u :: u in book ==> RecordValid(book[u])
    ensures var st := OnBody(book, eco, s, sender, body, hasImg, today);
      forall u :: u in st.book ==> RecordValid(st.book[u])
  {
    if FormDetected(body) {
      var b0 := InitAttendanceUser(book, sender);
      assert RecordValid(b0[sender]);
      assert forall u :: u in b0 ==> RecordValid(b0[u]);
      MarkKeepsRecordsValid(b0, eco, s, sender, Validate(body, hasImg, s), hasImg, today);
    }
  }

  lemma MarkKeepsRecordsValid(b0: Book, eco: Economy.Ledger, s: Settings, sender: UserId,
                              v: Validation, hasImg: bool, today: int)
    requires sender in b0
    requires forall u :: u in b0 ==> RecordValid(b0[u])
    ensures var st := Mark(b0, eco, s, sender, v, hasImg, today);
      forall u :: u in st.book ==> RecordValid(st.book[u])
  {
    UpdateStreakKeepsValid(b0[sender], today);
  }

  // ---------------------------------------------------------------------
  // attendancesettings
  // ---------------------------------------------------------------------

  /** `value === 'on' || 'true' || 'yes'` switches on, `'off' || 'false' ||
      'no'` switches off, anything else (including no value) is refused. */
  function ParseSwitch(value: Option<string>): (r: Option<bool>)
    ensures r == Some(true) <==> value == Some("on") || value == Some("true") || value == Some("yes")
    ensures r == Some(false) <==> value == Some("off") || value == Some("false") || value == Some("no")
  {
    match value
    case None => None
    case Some(w) =>
      if w == "on" || w == "true" || w == "yes" then Some(true)
      else if w == "off" || w == "false" || w == "no" then Some(false)
      else None
  }

  datatype SettingsReply = NotAdmin | ShowSettings | Updated | InvalidValue | UnknownSetting

  datatype SettingsStep = SettingsStep(reply: SettingsReply, settings: Settings)

  /** The `value` of `attendancesettings <setting> <value>` is truthy: the
      second argument is present and not empty. */
  predicate HasValue(args: seq<string>) {
    |args| > 1 && args[1] != []
  }

  /** `attendancesettings <setting> <value>`. A numeric setting needs a
      value (`!value` refuses, attendance.js:451, 469, 487, 493); `number` is
      that value after the `isNaN` guard and `parseInt` (`None` when refused),
      and `multiplier` the value after the guard and `parseFloat`. */
  function SettingsCommand(s: Settings, authorized: bool, args: seq<string>,
                           number: Option<int>, multiplier: Option<Ratio>): (r: SettingsStep)
    ensures r.reply != Updated ==> r.settings == s
    ensures !authorized ==> r.reply == NotAdmin
    ensures authorized && (args == [] || args[0] == []) ==> r.reply == ShowSettings
    ensures r.reply == Updated ==> (authorized && |args| > 0 &&
      var setting := LowerStr(args[0]);
      var value := if |args| > 1 then Some(args[1]) else None;
      || (setting == "reward" && HasValue(args) && number.Some? && r.settings == s.(rewardAmount := number.value))
      || (setting == "imagebonus" && HasValue(args) && number.Some? && r.settings == s.(imageRewardBonus := number.value))
      || (setting == "minlength" && HasValue(args) && number.Some? && r.settings == s.(minFieldLength := number.value))
      || (setting == "multiplier" && HasValue(args) && multiplier.Some? && r.settings == s.(streakBonusMultiplier := multiplier.value))
      || (setting == "image" && ParseSwitch(value).Some? && r.settings == s.(requireImage := ParseSwitch(value).value))
      || (setting == "streak" && ParseSwitch(value).Some? && r.settings == s.(enableStreakBonus := ParseSwitch(value).value)))
    ensures authorized && |args| > 0 ==>
      var setting := LowerStr(args[0]);
      var value := if |args| > 1 then Some(args[1]) else None;
      && (setting == "reward" && HasValue(args) && number.Some? ==> r == SettingsStep(Updated, s.(rewardAmount := number.value)))
      && (setting == "imagebonus" && HasValue(args) && number.Some? ==> r == SettingsStep(Updated, s.(imageRewardBonus := number.value)))
      && (setting == "minlength" && HasValue(args) && number.Some? ==> r == SettingsStep(Updated, s.(minFieldLength := number.value)))
      && (setting == "multiplier" && HasValue(args) && multiplier.Some? ==>
            r == SettingsStep(Updated, s.(streakBonusMultiplier := multiplier.value)))
      && (setting == "image" && ParseSwitch(value).Some? ==>
            r == SettingsStep(Updated, s.(requireImage := ParseSwitch(value).value)))
      && (setting == "streak" && ParseSwitch(value).Some? ==>
            r == SettingsStep(Updated, s.(enableStreakBonus := ParseSwitch(value).value)))
    ensures r.reply == InvalidValue <==>
      authorized && |args| > 0 &&
      var setting := LowerStr(args[0]);
      var value := if |args| > 1 then Some(args[1]) else None;
      || (setting in ["reward", "imagebonus", "minlength"] && (!HasValue(args) || number.None?))
      || (setting == "multiplier" && (!HasValue(args) || multiplier.None?))
      || (setting in ["image", "streak"] && ParseSwitch(value).None?)
    ensures r.reply == UnknownSetting <==>
      authorized && |args| > 0 && args[0] != [] &&
      LowerStr(args[0]) !in ["reward", "image", "imagebonus", "streak", "multiplier", "minlength"]
  {
    if !authorized then SettingsStep(NotAdmin, s)
    else if args == [] || args[0] == [] then SettingsStep(ShowSettings, s)
    else
      var setting := LowerStr(args[0]);
      var value := if |args| > 1 then Some(args[1]) else None;
      if setting == "reward" then
        if !HasValue(args) || number.None? then SettingsStep(InvalidValue, s)
        else SettingsStep(Updated, s.(rewardAmount := number.value))
      else if setting == "image" then
        match ParseSwitch(value)
        case None => SettingsStep(InvalidValue, s)
        case Some(on) => SettingsStep(Updated, s.(requireImage := on))
      else if setting == "imagebonus" then
        if !HasValue(args) || number.None? then SettingsStep(InvalidValue, s)
        else SettingsStep(Updated, s.(imageRewardBonus := number.value))
      else if setting == "streak" then
        match ParseSwitch(value)
        case None => SettingsStep(InvalidValue, s)
        case Some(on) => SettingsStep(Updated, s.(enableStreakBonus := on))
      else if setting == "multiplier" then
        if !HasValue(args) || multiplier.None? then SettingsStep(InvalidValue, s)
        else SettingsStep(Updated, s.(streakBonusMultiplier := multiplier.value))
      else if setting == "minlength" then
        if !HasValue(args) || number.None? then SettingsStep(InvalidValue, s)
        else SettingsStep(Updated, s.(minFieldLength := number.value))
      else SettingsStep(UnknownSetting, s)
  }

  /** A reward set by `attendancesettings reward <n>` is what the next
      approved form without an image pays, as long as no streak bonus
      applies. */
  lemma RewardSettingTakesEffect(s: Settings, args: seq<string>, n: int, multiplier: Option<Ratio>,
                                 streak: int)
    requires |args| > 0 && LowerStr(args[0]) == "reward" && HasValue(args)
    requires !(s.enableStreakBonus && streak >= 3)
    ensures var r := SettingsCommand(s, true, args, Some(n), multiplier);
      r.reply == Updated && Reward(r.settings, false, streak) == n
  {
  }

  /** `toLowerCase` turns the Kelvin sign into `k`, so "strea\u212A" names
      the `streak` setting. */
  lemma KelvinSignNamesStreak()
    ensures LowerStr("strea\U{212A}") == "streak"
  {
    var w := "strea\U{212A}";
    assert LowerStr(w)[5] == Lower('\U{212A}') == 'k';
    assert forall k :: 0 <= k < 5 ==> LowerStr(w)[k] == w[k];
  }
}

=== FILE: economy.dfy ===
/** The economy ledger of `plugins/economy.js`: a map from user id to a
    record holding a wallet balance and a bank balance, and the commands that
    move money between wallets, banks and users, grant the daily attendance
    reward, attempt robberies, and manage clans. Each command is a pure
    transition from the ledger before to the ledger after, with the reply it
    produces. */
module Economy {
  import opened Maybe
  import opened Text

  type UserId = string

  /** One share holding, as the investment plugin stores it in the user record.
      Dates are day numbers. */
  datatype Holding = Holding(
    quantity: int, boughtAt: int, totalInvested: int,
    lockedUntil: int, dateBought: int, duration: int)

  /** Holdings keyed by company, in insertion order like a JavaScript object. */
  type Holdings = seq<(string, Holding)>

  datatype User = User(
    balance: int, bank: int, lastAttendance: Option<int>, inventory: seq<string>,
    clan: Option<string>, bounty: int, rank: string, shares: Option<Holdings>)

  type Ledger = map<UserId, User>

  const NewUser: User := User(0, 0, None, [], None, 0, "Newbie", None)

  /** Creates the record of `u` unless it already exists. */
  function InitUser(eco: Ledger, u: UserId): (r: Ledger)
    ensures u in r && r.Keys == eco.Keys + {u}
    ensures forall v :: v in eco ==> r[v] == eco[v]
    ensures u !in eco ==> r[u].balance == 0 && r[u].bank == 0 && r[u].clan.None?
                          && r[u].lastAttendance.None? && r[u].shares.None?
  {
    if u in eco then eco else eco[u := NewUser]
  }

  /** Initialising twice is the same as initialising once. */
  lemma InitUserIdempotent(eco: Ledger, u: UserId)
    ensures InitUser(InitUser(eco, u), u) == InitUser(eco, u)
  {
  }

  /** Records other than `u`'s are those of `eco`, and `u`'s record is `eco`'s
      when it existed. */
  ghost predicate OnlyTouches(eco: Ledger, r: Ledger, u: UserId) {
    && r.Keys == eco.Keys + {u}
    && forall v :: v in eco && v != u ==> r[v] == eco[v]
  }

  ghost predicate OnlyTouchesTwo(eco: Ledger, r: Ledger, u: UserId, w: UserId) {
    && r.Keys == eco.Keys + {u, w}
    && forall v :: v in eco && v != u && v != w ==> r[v] == eco[v]
  }

  function Credit(eco: Ledger, u: UserId, amount: int): (r: Ledger)
    requires u in eco
    ensures r.Keys == eco.Keys
    ensures r[u] == eco[u].(balance := eco[u].balance + amount)
    ensures forall v :: v in eco && v != u ==> r[v] == eco[v]
  {
    eco[u := eco[u].(balance := eco[u].balance + amount)]
  }

  datatype Reply =
    | Done
    | Usage
    | InvalidAmount
    | Insufficient
    | NotDetected
    | AlreadyRewarded

  datatype Step = Step(reply: Reply, eco: Ledger)

  /** No wallet and no bank account is overdrawn. */
  ghost predicate Solvent(eco: Ledger) {
    forall u :: u in eco ==> eco[u].balance >= 0 && eco[u].bank >= 0
  }

  lemma InitUserKeepsSolvent(eco: Ledger, u: UserId)
    requires Solvent(eco)
    ensures Solvent(InitUser(eco, u))
  {
  }

  // ---------------------------------------------------------------------
  // send / deposit / withdraw
  // ---------------------------------------------------------------------

  /** The amount token of `send @user amount`: the third space-separated part
      of the trimmed body. */
  function SendAmount(body: string): Option<int> {
    var parts := SplitOn(Trim(body), ' ');
    if |parts| > 2 then ParseInt(parts[2]) else None
  }

  lemma NoSpaceInShowInt(n: int)
    ensures ' ' !in ShowInt(n)
  {
    var w := ShowInt(n);
    assert forall k :: 0 <= k < |w| ==> Negate(IsSpace)(w[k]);
  }

  /** The amount typed as the third word of `send <cmd> @user <amount>` is
      the amount read back. */
  lemma SendAmountReadsThirdWord(cmd: string, tag: string, n: int)
    requires cmd != [] && !IsSpace(cmd[0]) && ' ' !in cmd && ' ' !in tag
    ensures SendAmount(JoinWith([cmd, tag, ShowInt(n)], ' ')) == Some(n)
  {
    var w := ShowInt(n);
    NoSpaceInShowInt(n);
    var s := JoinWith([cmd, tag, w], ' ');
    assert [cmd, tag, w][1..] == [tag, w];
    assert [tag, w][1..] == [w];
    assert JoinWith([w], ' ') == w;
    assert JoinWith([tag, w], ' ') == tag + [' '] + w;
    assert s == cmd + [' '] + (tag + [' '] + w);
    assert s[0] == cmd[0] && s[|s| - 1] == w[|w| - 1];
    TrimKeepsTrimmed(s);
    SplitOnJoin([cmd, tag, w], ' ');
    assert SplitOn(Trim(s), ' ')[2] == w;
    ParseShowInt(n);
  }

  /** `send` as the source has it: no lower bound on the amount. `a` is
      `SendAmount(body)`, `mention` the first mentioned user. */
  function SendAsWritten(eco: Ledger, sender: UserId, mention: Option<UserId>, a: Option<int>): (r: Step)
    ensures var e0 := InitUser(eco, sender);
      && (r.reply == Done <==> mention.Some? && a.Some? && e0[sender].balance >= a.value)
      && (r.reply != Done ==> r.eco == e0)
  {
    var e0 := InitUser(eco, sender);
    if mention.None? || a.None? then Step(Usage, e0)
    else if e0[sender].balance < a.value then Step(Insufficient, e0)
    else
      var e1 := InitUser(e0, mention.value);
      Step(Done, Credit(Credit(e1, sender, -a.value), mention.value, a.value))
  }

  /** A successful `send` with a negative amount moves money from the mentioned
      user to the sender: the recipient's balance drops. */
  lemma SendAsWrittenTakesFromRecipient(eco: Ledger, sender: UserId, m: UserId, a: int)
    requires Solvent(eco)
    requires sender in eco && m in eco && sender != m
    requires a < 0
    ensures var r := SendAsWritten(eco, sender, Some(m), Some(a));
      && r.reply == Done
      && r.eco[m].balance < eco[m].balance
      && r.eco[sender].balance > eco[sender].balance
  {
    assert InitUser(eco, sender) == eco;
    assert InitUser(eco, m) == eco;
    var e1 := Credit(eco, sender, -a);
    assert e1[m] == eco[m];
  }

  /** In particular a recipient with an empty wallet ends up in debt. */
  lemma SendAsWrittenBreaksSolvency(eco: Ledger, sender: UserId, m: UserId, a: int)
    requires Solvent(eco)
    requires sender in eco && m in eco && sender != m && eco[m].balance == 0
    requires a < 0
    ensures !Solvent(SendAsWritten(eco, sender, Some(m), Some(a)).eco)
  {
    SendAsWrittenTakesFromRecipient(eco, sender, m, a);
    var r := SendAsWritten(eco, sender, Some(m), Some(a));
    assert m in r.eco && r.eco[m].balance < 0;
  }

  /** `send` with the amount check `deposit` and `withdraw` already have: the
      amount must be positive. Money is conserved and only flows from the
      sender to the mentioned user. */
  function Send(eco: Ledger, sender: UserId, mention: Option<UserId>, a: Option<int>): (r: Step)
    ensures var e0 := InitUser(eco, sender);
      && (r.reply == Usage <==> mention.None? || a.None?)
      && (r.reply == Done <==> mention.Some? && a.Some? && 0 < a.value <= e0[sender].balance)
      && (r.reply != Done ==> r.eco == e0)
      && (r.reply == Done ==>
            var m := mention.value; var e1 := InitUser(e0, m);
            && OnlyTouchesTwo(eco, r.eco, sender, m)
            && (m != sender ==>
                  && r.eco[sender] == e1[sender].(balance := e1[sender].balance - a.value)
                  && r.eco[m] == e1[m].(balance := e1[m].balance + a.value)
                  && r.eco[sender].balance == e1[sender].balance - a.value
                  && r.eco[m].balance == e1[m].balance + a.value
                  && r.eco[sender].balance + r.eco[m].balance == e1[sender].balance + e1[m].balance)
            && (m == sender ==> r.eco == e1))
  {
    var e0 := InitUser(eco, sender);
    if mention.None? || a.None? then Step(Usage, e0)
    else if a.value <= 0 then Step(InvalidAmount, e0)
    else if e0[sender].balance < a.value then Step(Insufficient, e0)
    else
      var e1 := InitUser(e0, mention.value);
      Step(Done, Credit(Credit(e1, sender, -a.value), mention.value, a.value))
  }

  /** With the corrected check the recipient never loses and the sender never gains. */
  lemma SendNeverTakesFromRecipient(eco: Ledger, sender: UserId, m: UserId, a: Option<int>)
    requires sender in eco && m in eco && sender != m
    ensures var r := Send(eco, sender, Some(m), a);
      r.eco[m].balance >= eco[m].balance && r.eco[sender].balance <= eco[sender].balance
  {
  }

  /** `deposit <amount>`: the second whitespace-separated token of the trimmed body. */
  function DepositAmount(body: string): Option<int> {
    var args := SplitRuns(Trim(body), IsSpace);
    if |args| > 1 then ParseInt(args[1]) else None
  }

  /** `withdraw <amount>`: the second part of the body split on single spaces. */
  function WithdrawAmount(body: string): Option<int> {
    var parts := SplitOn(body, ' ');
    if |parts| > 1 then ParseInt(parts[1]) else None
  }

  /** The amount typed after `deposit` is the amount read back, whatever
      whitespace surrounds the message. */
  lemma DepositAmountReadsSecondWord(cmd: string, n: int)
    requires cmd != [] && All(cmd, Negate(IsSpace))
    ensures DepositAmount(JoinWith([cmd, ShowInt(n)], ' ')) == Some(n)
  {
    var w := ShowInt(n);
    var s := JoinWith([cmd, w], ' ');
    assert [cmd, w][1..] == [w];
    assert JoinWith([w], ' ') == w;
    assert s == cmd + [' '] + w;
    assert s[0] == cmd[0] && s[|s| - 1] == w[|w| - 1];
    TrimKeepsTrimmed(s);
    SplitRunsJoin([cmd, w], ' ', IsSpace);
    ParseShowInt(n);
  }

  /** The amount typed after `withdraw` is the amount read back. */
  lemma WithdrawAmountReadsSecondWord(cmd: string, n: int)
    requires ' ' !in cmd
    ensures WithdrawAmount(JoinWith([cmd, ShowInt(n)], ' ')) == Some(n)
  {
    var w := ShowInt(n);
    NoSpaceInShowInt(n);
    SplitOnJoin([cmd, w], ' ');
    ParseShowInt(n);
  }

  /** `deposit` with `a` = `DepositAmount(body)`. */
  function Deposit(eco: Ledger, sender: UserId, a: Option<int>): (r: Step)
    ensures var e0 := InitUser(eco, sender);
      && r.eco.Keys == e0.Keys
      && (r.reply == InvalidAmount <==> a.None? || a.value <= 0)
      && (r.reply == Done <==> a.Some? && 0 < a.value <= e0[sender].balance)
      && (r.reply != Done ==> r.eco == e0)
      && (r.reply == Done ==>
            && r.eco[sender] == e0[sender].(balance := e0[sender].balance - a.value,
                                            bank := e0[sender].bank + a.value)
            && forall v :: v in e0 && v != sender ==> r.eco[v] == e0[v])
      && r.eco[sender].balance + r.eco[sender].bank == e0[sender].balance + e0[sender].bank
      && r.eco[sender].balance >= 0 <== e0[sender].balance >= 0
  {
    var e0 := InitUser(eco, sender);
    if a.None? || a.value <= 0 then Step(InvalidAmount, e0)
    else if e0[sender].balance < a.value then Step(Insufficient, e0)
    else
      var u := e0[sender];
      Step(Done, e0[sender := u.(balance := u.balance - a.value, bank := u.bank + a.value)])
  }

  /** `withdraw` with `a` = `WithdrawAmount(body)`. */
  function Withdraw(eco: Ledger, sender: UserId, a: Option<int>): (r: Step)
    ensures var e0 := InitUser(eco, sender);
      && r.eco.Keys == e0.Keys
      && (r.reply == InvalidAmount <==> a.None? || a.value <= 0)
      && (r.reply == Done <==> a.Some? && 0 < a.value <= e0[sender].bank)
      && (r.reply != Done ==> r.eco == e0)
      && (r.reply == Done ==>
            && r.eco[sender] == e0[sender].(balance := e0[sender].balance + a.value,
                                            bank := e0[sender].bank - a.value)
            && forall v :: v in e0 && v != sender ==> r.eco[v] == e0[v])
      && r.eco[sender].balance + r.eco[sender].bank == e0[sender].balance + e0[sender].bank
  {
    var e0 := InitUser(eco, sender);
    if a.None? || a.value <= 0 then Step(InvalidAmount, e0)
    else if e0[sender].bank < a.value then Step(Insufficient, e0)
    else
      var u := e0[sender];
      Step(Done, e0[sender := u.(balance := u.balance + a.value, bank := u.bank - a.value)])
  }

  /** Withdrawing what was just deposited restores the ledger. */
  lemma WithdrawUndoesDeposit(eco: Ledger, sender: UserId, a: Option<int>)
    requires Solvent(eco)
    requires Deposit(eco, sender, a).reply == Done
    ensures var d := Deposit(eco, sender, a);
      && Withdraw(d.eco, sender, a).reply == Done
      && Withdraw(d.eco, sender, a).eco == InitUser(eco, sender)
  {
    var e0 := InitUser(eco, sender);
    var d := Deposit(eco, sender, a);
    assert InitUser(d.eco, sender) == d.eco;
    var u := e0[sender];
    assert d.eco[sender] == u.(balance := u.balance - a.value, bank := u.bank + a.value);
    var w := Withdraw(d.eco, sender, a);
    assert w.reply == Done;
    assert w.eco[sender] == u;
    assert w.eco.Keys == e0.Keys;
  }

  /** The corrected `send` never overdraws anyone. */
  lemma SendKeepsSolvent(eco: Ledger, sender: UserId, mention: Option<UserId>, a: Option<int>)
    requires Solvent(eco)
    ensures Solvent(Send(eco, sender, mention, a).eco)
  {
    var e0 := InitUser(eco, sender);
    InitUserKeepsSolvent(eco, sender);
    var r := Send(eco, sender, mention, a);
    if r.reply == Done {
      var m := mention.value;
      var e1 := InitUser(e0, m);
      InitUserKeepsSolvent(e0, m);
      forall u | u in r.eco ensures r.eco[u].balance >= 0 && r.eco[u].bank >= 0 {
        if u != sender && u != m {
          assert r.eco[u] == e1[u];
        }
      }
    }
  }

  lemma DepositKeepsSolvent(eco: Ledger, sender: UserId, a: Option<int>)
    requires Solvent(eco)
    ensures Solvent(Deposit(eco, sender, a).eco)
  {
    InitUserKeepsSolvent(eco, sender);
  }

  lemma WithdrawKeepsSolvent(eco: Ledger, sender: UserId, a: Option<int>)
    requires Solvent(eco)
    ensures Solvent(Withdraw(eco, sender, a).eco)
  {
    InitUserKeepsSolvent(eco, sender);
  }

  // ---------------------------------------------------------------------
  // Daily attendance reward
  // ---------------------------------------------------------------------

  const AttendanceRewardAmount := 500

  /** `[*_]Name[:*]` and `[*_]Relationship[:*]`, case-insensitive. */
  const MarkedName: Pattern := [['*', '_']] + Lit("Name") + [[':', '*']]
  const MarkedRelationship: Pattern := [['*', '_']] + Lit("Relationship") + [[':', '*']]

  /** `/[*_]Name[:*]\s*[\s\S]*?[*_]Relationship[:*]/i.test(body)`. */
  predicate RewardFormDetected(body: string) {
    match FindFrom(body, MarkedName, 0)
    case None => false
    case Some(j) => FindFrom(body, MarkedRelationship, j + |MarkedName|).Some?
  }

  /** The detector holds exactly when a marked `Name` label is followed, after
      its end, by a marked `Relationship` label. */
  lemma RewardFormDetectedSpec(body: string)
    ensures RewardFormDetected(body) <==>
      exists j: nat, k: nat :: MatchesAt(body, MarkedName, j) && j + |MarkedName| <= k
                            && MatchesAt(body, MarkedRelationship, k)
  {
    match FindFrom(body, MarkedName, 0)
    case None =>
    case Some(j0) =>
      var r := FindFrom(body, MarkedRelationship, j0 + |MarkedName|);
      if r.Some? {
        assert MatchesAt(body, MarkedName, j0) && MatchesAt(body, MarkedRelationship, r.value);
      }
      if exists j: nat, k: nat :: MatchesAt(body, MarkedName, j) && j + |MarkedName| <= k
                               && MatchesAt(body, MarkedRelationship, k) {
        var j: nat, k: nat :| MatchesAt(body, MarkedName, j) && j + |MarkedName| <= k
                             && MatchesAt(body, MarkedRelationship, k);
        assert j0 <= j;
        assert !r.None? by {
          assert MatchesAt(body, MarkedRelationship, k);
        }
      }
  }

  /** The attendance detector of the economy plugin: at most one reward of 500
      per calendar day (`today` is a day number). */
  function AttendanceReward(eco: Ledger, sender: UserId, body: string, today: int): (r: Step)
    ensures !RewardFormDetected(body) ==> r == Step(NotDetected, eco)
    ensures RewardFormDetected(body) ==> var e0 := InitUser(eco, sender);
      && (r.reply == AlreadyRewarded <==> e0[sender].lastAttendance == Some(today))
      && (r.reply == AlreadyRewarded ==> r.eco == e0)
      && (r.reply != AlreadyRewarded ==>
            && r.reply == Done
            && r.eco.Keys == e0.Keys
            && r.eco[sender] == e0[sender].(balance := e0[sender].balance + 500,
                                            lastAttendance := Some(today))
            && forall v :: v in e0 && v != sender ==> r.eco[v] == e0[v])
  {
    if !RewardFormDetected(body) then Step(NotDetected, eco)
    else
      var e0 := InitUser(eco, sender);
      if e0[sender].lastAttendance == Some(today) then Step(AlreadyRewarded, e0)
      else
        var u := e0[sender];
        Step(Done, e0[sender := u.(balance := u.balance + AttendanceRewardAmount,
                                   lastAttendance := Some(today))])
  }

  /** A second form on the same day earns nothing and changes nothing. */
  lemma AttendanceRewardOncePerDay(eco: Ledger, sender: UserId, body: string, body2: string, today: int)
    requires RewardFormDetected(body2)
    requires AttendanceReward(eco, sender, body, today).reply == Done
    ensures var r1 := AttendanceReward(eco, sender, body, today);
      && AttendanceReward(r1.eco, sender, body2, today) == Step(AlreadyRewarded, r1.eco)
  {
    var r1 := AttendanceReward(eco, sender, body, today);
    assert InitUser(r1.eco, sender) == r1.eco;
  }

  // ---------------------------------------------------------------------
  // rob
  // ---------------------------------------------------------------------

  const RobCooldownMs := 30 * 60 * 1000
  const MinRobbableBalance := 1000
  const RobPenalty := 500
  const RobBase := 200

  datatype RobOutcome =
    | NoMention
    | SelfRob
    | OnCooldown
    | TargetTooPoor
    | Robbed(amount: int)
    | Caught(penaltyPaid: bool)

  datatype RobStep = RobStep(outcome: RobOutcome, eco: Ledger, cooldown: map<UserId, int>)

  /** `floor(random * (balance * 0.3)) + 200`, capped at the target's balance. */
  function StolenAmount(targetBalance: int, roll: real): (a: int)
    requires 0.0 <= roll < 1.0
    requires targetBalance >= MinRobbableBalance
    ensures RobBase <= a <= targetBalance
  {
    var share := roll * (targetBalance as real * 3.0 / 10.0);
    assert 0.0 <= share;
    var stolen := share.Floor + RobBase;
    if stolen < targetBalance then stolen else targetBalance
  }

  predicate CoolingDown(cooldown: map<UserId, int>, sender: UserId, now: int) {
    sender in cooldown && now - cooldown[sender] < RobCooldownMs
  }

  /** `rob @user` at time `now` (milliseconds). The coin flip `success` and the
      uniform draw `roll` stand for the two `Math.random()` calls. */
  function Rob(eco: Ledger, cooldown: map<UserId, int>, sender: UserId, mention: Option<UserId>,
               now: int, success: bool, roll: real): (r: RobStep)
    requires 0.0 <= roll < 1.0
    ensures mention.None? ==> r == RobStep(NoMention, InitUser(eco, sender), cooldown)
    ensures mention.Some? ==>
      var m := mention.value; var e1 := InitUser(InitUser(eco, sender), m);
      && r.eco.Keys == e1.Keys
      && (r.outcome == SelfRob <==> m == sender)
      && (r.outcome == OnCooldown <==> m != sender && CoolingDown(cooldown, sender, now))
      && (r.outcome == TargetTooPoor <==>
            m != sender && !CoolingDown(cooldown, sender, now) && e1[m].balance < MinRobbableBalance)
      && (r.outcome.Robbed? || r.outcome.Caught? <==>
            m != sender && !CoolingDown(cooldown, sender, now) && e1[m].balance >= MinRobbableBalance)
      && (r.outcome.Robbed? ==> success)
      && (r.outcome.Caught? ==> !success)
      && (r.outcome.Robbed? || r.outcome.Caught? ==> r.cooldown == cooldown[sender := now])
      && (!(r.outcome.Robbed? || r.outcome.Caught?) ==> r.cooldown == cooldown && r.eco == e1)
      && (r.outcome.Robbed? ==>
            && RobBase <= r.outcome.amount <= e1[m].balance
            && r.eco[m] == e1[m].(balance := e1[m].balance - r.outcome.amount)
            && r.eco[sender] == e1[sender].(balance := e1[sender].balance + r.outcome.amount)
            && r.eco[m].balance == e1[m].balance - r.outcome.amount
            && r.eco[sender].balance == e1[sender].balance + r.outcome.amount)
      && (r.outcome.Caught? ==>
            && (r.outcome.penaltyPaid <==> e1[sender].balance >= RobPenalty)
            && (r.outcome.penaltyPaid ==>
                  && r.eco[sender] == e1[sender].(balance := e1[sender].balance - RobPenalty)
                  && r.eco[m] == e1[m].(balance := e1[m].balance + RobPenalty)
                  && r.eco[sender].balance == e1[sender].balance - RobPenalty
                  && r.eco[m].balance == e1[m].balance + RobPenalty)
            && (!r.outcome.penaltyPaid ==> r.eco == e1))
      && r.eco[sender].balance + r.eco[m].balance == e1[sender].balance + e1[m].balance
      && OnlyTouchesTwo(eco, r.eco, sender, m)
  {
    var e0 := InitUser(eco, sender);
    if mention.None? then RobStep(NoMention, e0, cooldown)
    else
      var m := mention.value;
      var e1 := InitUser(e0, m);
      if m == sender then RobStep(SelfRob, e1, cooldown)
      else if CoolingDown(cooldown, sender, now) then RobStep(OnCooldown, e1, cooldown)
      else if e1[m].balance < MinRobbableBalance then RobStep(TargetTooPoor, e1, cooldown)
      else Heist(e1, cooldown, sender, m, now, success, roll)
  }

  /** The attempt proper, once the target is known to be worth robbing: a
      success moves the stolen amount from the victim to the robber, a
      failure moves the penalty the other way when the robber can pay it. */
  function Heist(e1: Ledger, cooldown: map<UserId, int>, sender: UserId, m: UserId,
                 now: int, success: bool, roll: real): (r: RobStep)
    requires 0.0 <= roll < 1.0
    requires sender in e1 && m in e1 && m != sender
    requires e1[m].balance >= MinRobbableBalance
    ensures r.outcome.Robbed? <==> success
    ensures r.outcome.Caught? <==> !success
    ensures r.cooldown == cooldown[sender := now]
    ensures r.eco.Keys == e1.Keys
    ensures forall v :: v in e1 && v != sender && v != m ==> r.eco[v] == e1[v]
    ensures r.outcome.Robbed? ==>
      && RobBase <= r.outcome.amount <= e1[m].balance
      && r.eco[m] == e1[m].(balance := e1[m].balance - r.outcome.amount)
      && r.eco[sender] == e1[sender].(balance := e1[sender].balance + r.outcome.amount)
      && r.eco[m].balance == e1[m].balance - r.outcome.amount
      && r.eco[sender].balance == e1[sender].balance + r.outcome.amount
    ensures r.outcome.Caught? ==>
      && (r.outcome.penaltyPaid <==> e1[sender].balance >= RobPenalty)
      && (r.outcome.penaltyPaid ==>
            && r.eco[sender] == e1[sender].(balance := e1[sender].balance - RobPenalty)
            && r.eco[m] == e1[m].(balance := e1[m].balance + RobPenalty)
            && r.eco[sender].balance == e1[sender].balance - RobPenalty
            && r.eco[m].balance == e1[m].balance + RobPenalty)
      && (!r.outcome.penaltyPaid ==> r.eco == e1)
    ensures r.eco[sender].balance + r.eco[m].balance == e1[sender].balance + e1[m].balance
  {
    if success then
      var a := StolenAmount(e1[m].balance, roll);
      RobStep(Robbed(a), Credit(Credit(e1, m, -a), sender, a), cooldown[sender := now])
    else if e1[sender].balance >= RobPenalty then
      RobStep(Caught(true), Credit(Credit(e1, sender, -RobPenalty), m, RobPenalty), cooldown[sender := now])
    else
      RobStep(Caught(false), e1, cooldown[sender := now])
  }

  /** After an attempt that went through, every further attempt by the same
      robber within 30 minutes is refused. */
  lemma RobCooldownBlocksRetry(eco: Ledger, cooldown: map<UserId, int>, sender: UserId, m: UserId,
                               now: int, success: bool, roll: real,
                               m2: UserId, later: int, success2: bool, roll2: real)
    requires 0.0 <= roll < 1.0 && 0.0 <= roll2 < 1.0
    requires m2 != sender
    requires now <= later < now + RobCooldownMs
    requires var r := Rob(eco, cooldown, sender, Some(m), now, success, roll);
      r.outcome.Robbed? || r.outcome.Caught?
    ensures var r := Rob(eco, cooldown, sender, Some(m), now, success, roll);
      Rob(r.eco, r.cooldown, sender, Some(m2), later, success2, roll2).outcome == OnCooldown
  {
  }

  /** Neither outcome of a robbery overdraws the robber or the victim. */
  lemma RobKeepsSolvent(eco: Ledger, cooldown: map<UserId, int>, sender: UserId, mention: Option<UserId>,
                        now: int, success: bool, roll: real)
    requires 0.0 <= roll < 1.0
    requires Solvent(eco)
    ensures Solvent(Rob(eco, cooldown, sender, mention, now, success, roll).eco)
  {
    InitUserKeepsSolvent(eco, sender);
    var r := Rob(eco, cooldown, sender, mention, now, success, roll);
    if mention.Some? {
      var m := mention.value;
      var e1 := InitUser(InitUser(eco, sender), m);
      InitUserKeepsSolvent(InitUser(eco, sender), m);
      forall u | u in r.eco ensures r.eco[u].balance >= 0 && r.eco[u].bank >= 0 {
        if u != sender && u != m {
          assert r.eco[u] == e1[u];
        }
      }
    }
  }

  lemma AttendanceRewardKeepsSolvent(eco: Ledger, sender: UserId, body: string, today: int)
    requires Solvent(eco)
    ensures Solvent(AttendanceReward(eco, sender, body, today).eco)
  {
    InitUserKeepsSolvent(eco, sender);
  }

  // ---------------------------------------------------------------------
  // Clans
  // ---------------------------------------------------------------------

  datatype Clan = Clan(name: string, leader: UserId, members: seq<UserId>, level: int, bank: int)

  type Clans = map<string, Clan>

  datatype ClanReply =
    | ClanHelp
    | NoClanName
    | AlreadyInClan
    | ClanExists
    | Created
    | ClanNotFound
    | Joined
    | NotInClan
    | LeaderCannotLeave
    | Left
    | NotLeader
    | Disbanded
    | ClanInfo(clan: Clan)
    | UnknownSubcommand

  datatype ClanStep = ClanStep(reply: ClanReply, eco: Ledger, clans: Clans)

  predicate NoDup(ms: seq<UserId>) {
    forall i, j :: 0 <= i < j < |ms| ==> ms[i] != ms[j]
  }

  /** `members.filter(u => u !== sender)`. */
  function Without(ms: seq<UserId>, u: UserId): (r: seq<UserId>)
    ensures forall v :: v in r <==> v in ms && v != u
    ensures NoDup(ms) ==> NoDup(r)
  {
    if ms == [] then []
    else
      var rest := Without(ms[1..], u);
      if ms[0] == u then rest
      else
        assert NoDup(ms) ==> ms[0] !in ms[1..];
        [ms[0]] + rest
  }

  /** `members.forEach(u => { if (eco[u]) eco[u].clan = null; })`. */
  function ClearClan(eco: Ledger, members: seq<UserId>): (r: Ledger)
    ensures r.Keys == eco.Keys
    ensures forall u :: u in eco && u in members ==> r[u] == eco[u].(clan := None)
    ensures forall u :: u in eco && u !in members ==> r[u] == eco[u]
  {
    if members == [] then eco
    else
      var u := members[0];
      var e := if u in eco then eco[u := eco[u].(clan := None)] else eco;
      ClearClan(e, members[1..])
  }

  /** Clan membership as recorded in the clan table agrees with the `clan`
      field of every user record, each clan lists its leader and no member
      twice. */
  ghost predicate ClansConsistent(eco: Ledger, clans: Clans) {
    ClanShapes(clans) && MembersRecorded(eco, clans) && RecordsListed(eco, clans)
  }

  ghost predicate ClanShapes(clans: Clans) {
    forall c :: c in clans ==>
      clans[c].name == c && clans[c].leader in clans[c].members && NoDup(clans[c].members)
  }

  /** Every listed member has a record naming that clan. */
  ghost predicate MembersRecorded(eco: Ledger, clans: Clans) {
    forall c, u :: c in clans && u in clans[c].members ==> u in eco && eco[u].clan == Some(c)
  }

  /** Every record naming a clan is listed by that clan. */
  ghost predicate RecordsListed(eco: Ledger, clans: Clans) {
    forall u :: u in eco && eco[u].clan.Some? ==>
      eco[u].clan.value in clans && u in clans[eco[u].clan.value].members
  }

  /** `args.slice(1).join(" ")`. */
  function ClanName(args: seq<string>): string {
    if args == [] then [] else JoinWith(args[1..], ' ')
  }

  /** `clan <subcommand> [name]` with `args` the words after the command. */
  function ClanCommand(eco: Ledger, clans: Clans, sender: UserId, args: seq<string>): (r: ClanStep)
    ensures r.eco.Keys == eco.Keys + {sender}
    ensures var e0 := InitUser(eco, sender); var name := ClanName(args);
      && (r.reply == Created <==>
            |args| > 0 && LowerStr(args[0]) == "create" && name != []
            && e0[sender].clan.None? && name !in clans)
      && (r.reply == Created ==>
            && r.clans == clans[name := Clan(name, sender, [sender], 1, 0)]
            && r.eco == e0[sender := e0[sender].(clan := Some(name))])
      && (r.reply == Joined <==>
            |args| > 0 && LowerStr(args[0]) == "join" && name != [] && name in clans
            && e0[sender].clan.None?)
      && (r.reply == Joined ==>
            && r.clans == clans[name := clans[name].(members := clans[name].members + [sender])]
            && r.eco == e0[sender := e0[sender].(clan := Some(name))])
      && (r.reply == Left <==>
            |args| > 0 && LowerStr(args[0]) == "leave"
            && e0[sender].clan.Some? && e0[sender].clan.value in clans
            && clans[e0[sender].clan.value].leader != sender)
      && (r.reply == Left ==>
            e0[sender].clan.Some? &&
            var c := e0[sender].clan.value;
            && c in clans && clans[c].leader != sender
            && r.clans == clans[c := clans[c].(members := Without(clans[c].members, sender))]
            && r.eco == e0[sender := e0[sender].(clan := None)])
      && (r.reply == Disbanded <==>
            |args| > 0 && LowerStr(args[0]) == "disband"
            && e0[sender].clan.Some? && e0[sender].clan.value in clans
            && clans[e0[sender].clan.value].leader == sender)
      && (r.reply == Disbanded ==>
            e0[sender].clan.Some? &&
            var c := e0[sender].clan.value;
            && c in clans && clans[c].leader == sender
            && r.clans == clans - {c}
            && r.eco == ClearClan(e0, clans[c].members))
      && (r.reply !in {Created, Joined, Left, Disbanded} ==> r.clans == clans && r.eco == e0)
  {
    var e0 := InitUser(eco, sender);
    if |args| == 0 || args[0] == [] then ClanStep(ClanHelp, e0, clans)
    else
      var name := ClanName(args);
      var sub := LowerStr(args[0]);
      var mine := e0[sender].clan;
      if sub == "create" then
        if name == [] then ClanStep(NoClanName, e0, clans)
        else if mine.Some? then ClanStep(AlreadyInClan, e0, clans)
        else if name in clans then ClanStep(ClanExists, e0, clans)
        else
          ClanStep(Created, e0[sender := e0[sender].(clan := Some(name))],
                   clans[name := Clan(name, sender, [sender], 1, 0)])
      else if sub == "join" then
        if name == [] || name !in clans then ClanStep(ClanNotFound, e0, clans)
        else if mine.Some? then ClanStep(AlreadyInClan, e0, clans)
        else
          ClanStep(Joined, e0[sender := e0[sender].(clan := Some(name))],
                   clans[name := clans[name].(members := clans[name].members + [sender])])
      else if sub == "leave" then
        if mine.None? || mine.value !in clans then ClanStep(NotInClan, e0, clans)
        else if clans[mine.value].leader == sender then ClanStep(LeaderCannotLeave, e0, clans)
        else
          var c := mine.value;
          ClanStep(Left, e0[sender := e0[sender].(clan := None)],
                   clans[c := clans[c].(members := Without(clans[c].members, sender))])
      else if sub == "disband" then
        if mine.None? || mine.value !in clans then ClanStep(NotInClan, e0, clans)
        else if clans[mine.value].leader != sender then ClanStep(NotLeader, e0, clans)
        else
          var c := mine.value;
          ClanStep(Disbanded, ClearClan(e0, clans[c].members), clans - {c})
      else if sub == "info" then
        if mine.None? || mine.value !in clans then ClanStep(NotInClan, e0, clans)
        else ClanStep(ClanInfo(clans[mine.value]), e0, clans)
      else ClanStep(UnknownSubcommand, e0, clans)
  }

  lemma InitUserKeepsClans(eco: Ledger, clans: Clans, u: UserId)
    requires ClansConsistent(eco, clans)
    ensures ClansConsistent(InitUser(eco, u), clans)
  {
  }

  lemma CreateKeepsClans(e0: Ledger, clans: Clans, sender: UserId, name: string)
    requires ClansConsistent(e0, clans)
    requires sender in e0 && e0[sender].clan.None? && name !in clans
    ensures ClansConsistent(e0[sender := e0[sender].(clan := Some(name))],
                            clans[name := Clan(name, sender, [sender], 1, 0)])
  {
    var e1 := e0[sender := e0[sender].(clan := Some(name))];
    var c1 := clans[name := Clan(name, sender, [sender], 1, 0)];
    forall c, u | c in c1 && u in c1[c].members ensures u in e1 && e1[u].clan == Some(c) {
      if c != name {
        assert u != sender;
      }
    }
  }

  lemma JoinKeepsClans(e0: Ledger, clans: Clans, sender: UserId, name: string)
    requires ClansConsistent(e0, clans)
    requires sender in e0 && e0[sender].clan.None? && name in clans
    ensures ClansConsistent(e0[sender := e0[sender].(clan := Some(name))],
                            clans[name := clans[name].(members := clans[name].members + [sender])])
  {
    var e1 := e0[sender := e0[sender].(clan := Some(name))];
    var ms := clans[name].members;
    var c1 := clans[name := clans[name].(members := ms + [sender])];
    assert sender !in ms;
    assert NoDup(ms + [sender]) by {
      forall i, j | 0 <= i < j < |ms + [sender]| ensures (ms + [sender])[i] != (ms + [sender])[j] {
        if j == |ms| {
          assert (ms + [sender])[i] == ms[i];
        }
      }
    }
    forall c, u | c in c1 && u in c1[c].members ensures u in e1 && e1[u].clan == Some(c) {
      if c != name {
        assert u != sender;
      } else if u != sender {
        assert u in ms;
      }
    }
  }

  lemma LeaveKeepsClans(e0: Ledger, clans: Clans, sender: UserId)
    requires ClansConsistent(e0, clans)
    requires sender in e0 && e0[sender].clan.Some?
    requires e0[sender].clan.value in clans && clans[e0[sender].clan.value].leader != sender
    ensures var c := e0[sender].clan.value;
      ClansConsistent(e0[sender := e0[sender].(clan := None)],
                      clans[c := clans[c].(members := Without(clans[c].members, sender))])
  {
    var c0 := e0[sender].clan.value;
    var e1 := e0[sender := e0[sender].(clan := None)];
    var c1 := clans[c0 := clans[c0].(members := Without(clans[c0].members, sender))];
    forall c, u | c in c1 && u in c1[c].members ensures u in e1 && e1[u].clan == Some(c) {
      if c != c0 {
        assert u in clans[c].members;
        assert u != sender;
      }
    }
  }

  lemma DisbandKeepsClans(e0: Ledger, clans: Clans, c0: string)
    requires ClansConsistent(e0, clans)
    requires c0 in clans
    ensures ClansConsistent(ClearClan(e0, clans[c0].members), clans - {c0})
  {
    var ms := clans[c0].members;
    var e1 := ClearClan(e0, ms);
    var c1 := clans - {c0};
    assert MembersRecorded(e1, c1) by {
      forall c, u | c in c1 && u in c1[c].members ensures u in e1 && e1[u].clan == Some(c) {
        assert e0[u].clan == Some(c);
        assert u !in ms;
      }
    }
    assert RecordsListed(e1, c1) by {
      forall u | u in e1 && e1[u].clan.Some?
        ensures e1[u].clan.value in c1 && u in c1[e1[u].clan.value].members
      {
        assert u !in ms;
        assert e1[u] == e0[u];
        assert e0[u].clan.value != c0;
      }
    }
  }

  /** Every clan subcommand keeps the clan table and the user records in agreement. */
  lemma ClanCommandKeepsClans(eco: Ledger, clans: Clans, sender: UserId, args: seq<string>)
    requires ClansConsistent(eco, clans)
    ensures var r := ClanCommand(eco, clans, sender, args); ClansConsistent(r.eco, r.clans)
  {
    var e0 := InitUser(eco, sender);
    InitUserKeepsClans(eco, clans, sender);
    var r := ClanCommand(eco, clans, sender, args);
    var name := ClanName(args);
    match r.reply
    case Created => CreateKeepsClans(e0, clans, sender, name);
    case Joined => JoinKeepsClans(e0, clans, sender, name);
    case Left => LeaveKeepsClans(e0, clans, sender);
    case Disbanded => DisbandKeepsClans(e0, clans, e0[sender].clan.value);
    case _ =>
  }
}

=== FILE: intake.dfy ===
/** The `messages.upsert` and `connection.update` handlers of `index.js`:
    how an incoming message is unwrapped, what its text is, how the text is
    cut into a command and its arguments, who sent it, whether the sender is
    turned away as banned, and how the database admin commands read their
    target number; and when a closed connection is reopened. The database is
    reduced to the sets of banned and premium numbers it stores. */
module Intake {
  import opened Maybe
  import opened Text

  // ---------------------------------------------------------------------
  // Message content
  // ---------------------------------------------------------------------

  /** The content of a message, by its content type. `OtherContent` stands
      for every type the handler takes no text from (stickers, reactions,
      view-once wrappers, ...). */
  datatype Content =
    | Conversation(text: string)
    | ExtendedText(text: string)
    | ImageMessage(caption: Option<string>)
    | VideoMessage(caption: Option<string>)
    | Ephemeral(inner: Content)
    | OtherContent

  /** An ephemeral wrapper is opened once; the result is not looked at again. */
  function Unwrap(c: Content): Content {
    if c.Ephemeral? then c.inner else c
  }

  /** The text of a message: the text of a conversation or extended text,
      the caption of an image or video when it has a non-empty one, and the
      empty string for everything else. */
  function BodyOf(c: Content): string {
    match c
    case Conversation(t) => t
    case ExtendedText(t) => t
    case ImageMessage(cap) => cap.GetOr([])
    case VideoMessage(cap) => cap.GetOr([])
    case _ => []
  }

  /** One wrapper is transparent, a second one hides the text. */
  lemma UnwrapOnce(c: Content)
    requires !c.Ephemeral?
    ensures BodyOf(Unwrap(Ephemeral(c))) == BodyOf(c)
    ensures BodyOf(Unwrap(Ephemeral(Ephemeral(c)))) == []
  {
  }

  // ---------------------------------------------------------------------
  // Prefix, command and arguments
  // ---------------------------------------------------------------------

  /** The separator class of `split(/ +/)`: the space character only. */
  predicate IsBlank(c: char) {
    c == ' '
  }

  datatype Words = Words(isCmd: bool, command: string, args: seq<string>, q: string)

  /** The command word: the text after the prefix, trimmed, up to the first
      space, lower-cased; empty when the body does not start with the prefix. */
  function CommandOf(prefix: string, body: string): (command: string)
    ensures !StartsWith(body, prefix) ==> command == []
    ensures ' ' !in command
  {
    if StartsWith(body, prefix) then LowerStr(BeforeFirst(Trim(body[|prefix|..]), ' ')) else []
  }

  /** The arguments: the trimmed body split at runs of spaces, first token
      dropped. */
  function ArgsOf(body: string): seq<string> {
    SplitRuns(Trim(body), IsBlank)[1..]
  }

  /** Every argument is a non-empty word without spaces. */
  lemma ArgsAreWords(body: string)
    ensures var args := ArgsOf(body);
      forall i :: 0 <= i < |args| ==> args[i] != [] && ' ' !in args[i]
  {
    var t := Trim(body);
    var parts := SplitRuns(t, IsBlank);
    if t != [] {
      assert !IsBlank(t[0]) && !IsBlank(t[|t| - 1]);
      SplitRunsNonEmpty(t, IsBlank);
    }
    forall i | 1 <= i < |parts| ensures parts[i] != [] && ' ' !in parts[i] {
      assert All(parts[i], Negate(IsBlank));
      assert forall k :: 0 <= k < |parts[i]| ==> parts[i][k] != ' ';
    }
  }

  function Tokenize(prefix: string, body: string): (w: Words)
    ensures w.isCmd <==> StartsWith(body, prefix)
    ensures w.q == JoinWith(w.args, ' ')
  {
    var args := ArgsOf(body);
    Words(StartsWith(body, prefix), CommandOf(prefix, body), args, JoinWith(args, ' '))
  }

  /** The arguments keep every character of the body except the spaces and
      the first token, and `q` puts single spaces back between them. */
  lemma ArgsKeepText(body: string)
    ensures var t := Trim(body);
      Concat([SplitRuns(t, IsBlank)[0]] + ArgsOf(body)) == Filter(t, Negate(IsBlank))
  {
    var t := Trim(body);
    var parts := SplitRuns(t, IsBlank);
    assert [parts[0]] + parts[1..] == parts;
    SplitRunsKeepsContent(t, IsBlank);
  }

  lemma NoSpaceNoBlank(s: string)
    requires All(s, Negate(IsSpace))
    ensures All(s, Negate(IsBlank)) && ' ' !in s
  {
    forall k | 0 <= k < |s| ensures Negate(IsBlank)(s[k]) && s[k] != ' ' {
      assert Negate(IsSpace)(s[k]);
      assert !IsSpace(s[k]);
      assert !IsBlank(s[k]);
    }
  }

  /** Joining `parts` and dropping the first `|p|` characters of its first
      part is joining the parts with that prefix removed. */
  lemma JoinDropPrefix(p: string, w: string, rest: seq<string>)
    ensures JoinWith([p + w] + rest, ' ')[|p|..] == JoinWith([w] + rest, ' ')
  {
    if rest == [] {
      assert JoinWith([p + w], ' ') == p + w;
      assert JoinWith([w], ' ') == w;
      assert (p + w)[|p|..] == w;
    } else {
      assert ([p + w] + rest)[1..] == rest;
      assert ([w] + rest)[1..] == rest;
      var tail := JoinWith(rest, ' ');
      assert JoinWith([p + w] + rest, ' ') == p + (w + [' '] + tail);
      assert JoinWith([w] + rest, ' ') == w + [' '] + tail;
    }
  }

  /** The arguments of a typed command line are the words after the first. */
  lemma ArgsOfJoin(parts: seq<string>)
    requires |parts| >= 1 && Typed(parts)
    ensures ArgsOf(JoinWith(parts, ' ')) == parts[1..]
  {
    var body := JoinWith(parts, ' ');
    TrimJoin(parts);
    TypedHasNoBlank(parts);
    SplitRunsJoin(parts, ' ', IsBlank);
    assert ArgsOf(body) == SplitRuns(body, IsBlank)[1..];
  }

  lemma TypedHasNoBlank(parts: seq<string>)
    requires Typed(parts)
    ensures forall i :: 0 <= i < |parts| ==> parts[i] != [] && All(parts[i], Negate(IsBlank))
  {
    forall i | 0 <= i < |parts| ensures All(parts[i], Negate(IsBlank)) {
      NoSpaceNoBlank(parts[i]);
    }
  }

  /** The command word of a typed command line is its first word after the
      prefix. */
  lemma CommandOfJoin(prefix: string, w: string, args: seq<string>)
    requires Typed([w] + args) && All(prefix, Negate(IsSpace))
    ensures StartsWith(JoinWith([prefix + w] + args, ' '), prefix)
    ensures CommandOf(prefix, JoinWith([prefix + w] + args, ' ')) == LowerStr(w)
  {
    var parts := [prefix + w] + args;
    var body := JoinWith(parts, ' ');
    var tail := [w] + args;
    JoinDropPrefix(prefix, w, args);
    JoinWithStartsWith(parts, prefix);
    var after := JoinWith(tail, ' ');
    JoinEnds(tail);
    TrimKeepsTrimmed(after);
    forall i | 0 <= i < |tail| ensures ' ' !in tail[i] {
      NoSpaceNoBlank(tail[i]);
    }
    SplitOnJoin(tail, ' ');
  }

  /** A command typed as the prefix, a word and space-separated arguments
      is read back as that word, lower-cased, and those arguments. */
  lemma TokenizeReadsCommand(prefix: string, w: string, args: seq<string>)
    requires All(prefix, Negate(IsSpace))
    requires w != [] && All(w, Negate(IsSpace)) && Typed(args)
    ensures var t := Tokenize(prefix, JoinWith([prefix + w] + args, ' '));
      t.isCmd && t.command == LowerStr(w) && t.args == args && t.q == JoinWith(args, ' ')
  {
    var parts := [prefix + w] + args;
    var tail := [w] + args;
    assert parts[1..] == args;
    assert Typed(tail) by {
      forall i | 0 <= i < |tail| ensures tail[i] != [] && All(tail[i], Negate(IsSpace)) {
        if i > 0 { assert tail[i] == args[i - 1]; }
      }
    }
    assert Typed(parts) by {
      assert All(prefix + w, Negate(IsSpace)) by {
        forall k | 0 <= k < |prefix + w| ensures Negate(IsSpace)((prefix + w)[k]) {
          if k < |prefix| { assert (prefix + w)[k] == prefix[k]; }
          else { assert (prefix + w)[k] == w[k - |prefix|]; }
        }
      }
      forall i | 0 <= i < |parts| ensures parts[i] != [] && All(parts[i], Negate(IsSpace)) {
        if i > 0 { assert parts[i] == args[i - 1]; }
      }
    }
    ArgsOfJoin(parts);
    CommandOfJoin(prefix, w, args);
  }

  /** A join of non-empty whitespace-free tokens neither starts nor ends
      with whitespace. */
  lemma JoinWithStartsWith(parts: seq<string>, p: string)
    requires |parts| >= 1 && StartsWith(parts[0], p)
    ensures StartsWith(JoinWith(parts, ' '), p)
  {
    var s := JoinWith(parts, ' ');
    if |parts| > 1 {
      assert s == parts[0] + ([' '] + JoinWith(parts[1..], ' '));
    }
    assert s[..|parts[0]|] == parts[0];
    assert s[..|p|] == parts[0][..|p|];
  }

  // ---------------------------------------------------------------------
  // Chat and sender
  // ---------------------------------------------------------------------

  /** A chat id names a group when it ends in `@g.us`. */
  predicate IsGroup(from: string) {
    EndsWith(from, "@g.us")
  }

  lemma GroupIds(n: string)
    ensures IsGroup(n + "@g.us")
    ensures !IsGroup(n + "@s.whatsapp.net")
  {
    var g := n + "@g.us";
    assert g[|g| - 5..] == "@g.us";
    var u := n + "@s.whatsapp.net";
    assert u[|u| - 5..] == u[|u| - 5..|u|];
    assert u[|u| - 1] == 't';
  }

  datatype Key = Key(remoteJid: string, fromMe: bool, participant: Option<string>)

  /** Who sent a message: the bot itself (its id up to `:`, as a user id)
      for its own messages, otherwise the group participant when there is a
      non-empty one, otherwise the chat. */
  function Sender(key: Key, botId: string): (sender: string)
    ensures key.fromMe ==> sender == BeforeFirst(botId, ':') + "@s.whatsapp.net"
    ensures !key.fromMe && key.participant.Some? && key.participant.value != [] ==>
              sender == key.participant.value
    ensures !key.fromMe && (key.participant.None? || key.participant.value == []) ==>
              sender == key.remoteJid
  {
    if key.fromMe then BeforeFirst(botId, ':') + "@s.whatsapp.net"
    else if key.participant.Some? && key.participant.value != [] then key.participant.value
    else key.remoteJid
  }

  /** The number of a user id: everything before the first `@`. */
  function SenderNumber(sender: string): (n: string)
    ensures '@' !in n && |n| <= |sender| && sender[..|n|] == n
  {
    BeforeFirst(sender, '@')
  }

  /** A user id is its number followed by `@` and a server; the number
      reads back. */
  lemma SenderNumberOfId(n: string, server: string)
    requires '@' !in n
    ensures SenderNumber(n + "@" + server) == n
  {
    var s := n + "@" + server;
    var r := SenderNumber(s);
    assert s[|n|] == '@';
    assert forall k :: 0 <= k < |n| ==> s[k] == n[k];
    assert |r| <= |n| by {
      assert |r| == |s| || s[|r|] == '@';
      assert r == s[..|r|];
    }
    assert |r| >= |n| by {
      assert forall k :: 0 <= k < |r| ==> r[k] == s[k] && r[k] != '@';
    }
    assert r == s[..|n|];
  }

  /** The bot's own messages are attributed to the bot's number. */
  lemma OwnMessagesFromBot(key: Key, botId: string)
    requires key.fromMe
    requires '@' !in BeforeFirst(botId, ':')
    ensures SenderNumber(Sender(key, botId)) == BeforeFirst(botId, ':')
  {
    SenderNumberOfId(BeforeFirst(botId, ':'), "s.whatsapp.net");
    assert BeforeFirst(botId, ':') + "@s.whatsapp.net" == BeforeFirst(botId, ':') + "@" + "s.whatsapp.net";
  }

  // ---------------------------------------------------------------------
  // Database gate and admin commands
  // ---------------------------------------------------------------------

  /** What the handler reads from and writes to the database: the numbers
      marked banned and those marked premium. */
  datatype Db = Db(banned: set<string>, premium: set<string>)

  /** `Database.isBanned`: a lookup that fails answers "not banned", so an
      unreachable database (`None`) lets everyone through. */
  predicate IsBanned(db: Option<Db>, number: string) {
    db.Some? && number in db.value.banned
  }

  datatype AdminAction =
    | Ban(number: string)
    | Unban(number: string)
    | GrantPremium(number: string)
    | RevokePremium(number: string)
    | Stats
    | TopUsers
    | NoNumber

  /** `args[0]?.replace(/[^0-9]/g, '')`: the first argument with every
      non-digit removed, empty when there is no argument. */
  function TargetNumber(args: seq<string>): (n: string)
    ensures All(n, IsDigit)
    ensures args != [] && All(args[0], IsDigit) ==> n == args[0]
    ensures args == [] ==> n == []
    ensures args != [] ==> (n == [] <==> All(args[0], Negate(IsDigit)))
  {
    if args == [] then []
    else
      DigitsOnlyOfDigits(args[0]);
      FilterEmpty(args[0], IsDigit);
      DigitsOnly(args[0])
  }

  /** A number typed behind a mention or a plus sign (`@2348...`,
      `+2348...`) is read as just its digits. */
  lemma TargetNumberDropsLeader(p: string, d: string)
    requires All(p, Negate(IsDigit)) && All(d, IsDigit)
    ensures TargetNumber([p + d]) == d
  {
    FilterAppend(p, d, IsDigit);
    FilterDropsAll(p, IsDigit);
    FilterKeepsAll(d, IsDigit);
  }

  lemma DigitsOnlyOfDigits(s: string)
    ensures All(s, IsDigit) ==> DigitsOnly(s) == s
  {
    if All(s, IsDigit) {
      FilterKeepsAll(s, IsDigit);
    }
  }

  /** A command that needs a number: the number, or `NoNumber` when the
      digits of the first argument are empty. */
  function WithNumber(args: seq<string>, action: string -> AdminAction): AdminAction {
    var n := TargetNumber(args);
    if n == [] then NoNumber else action(n)
  }

  function StartsWithEither(body: string, prefix: string, a: string, b: string): bool {
    StartsWith(body, prefix + a) || StartsWith(body, prefix + b)
  }

  /** The database admin commands, for a creator or owner only, matched in
      the order the handler tries them. */
  function AdminCommand(prefix: string, body: string, args: seq<string>, privileged: bool): (r: Option<AdminAction>)
    ensures !privileged ==> r.None?
    ensures r.Some? && r.value.Ban? ==> StartsWithEither(body, prefix, "dban ", "bandb ")
    ensures r.Some? && r.value.Unban? ==> StartsWithEither(body, prefix, "dunban ", "unbandb ")
    ensures r.Some? && r.value.GrantPremium? ==> StartsWithEither(body, prefix, "addprem ", "premium ")
    ensures r.Some? && r.value.RevokePremium? ==> StartsWithEither(body, prefix, "delprem ", "unpremium ")
    ensures r.Some? && (r.value.Ban? || r.value.Unban? || r.value.GrantPremium? || r.value.RevokePremium?) ==>
              r.value.number == TargetNumber(args) && r.value.number != [] && All(r.value.number, IsDigit)
    ensures r.Some? && r.value == NoNumber ==> TargetNumber(args) == []
    ensures privileged && StartsWithEither(body, prefix, "dban ", "bandb ") ==>
              r == Some(if TargetNumber(args) == [] then NoNumber else Ban(TargetNumber(args)))
    ensures privileged && !StartsWithEither(body, prefix, "dban ", "bandb ")
            && StartsWithEither(body, prefix, "dunban ", "unbandb ") ==>
              r == Some(if TargetNumber(args) == [] then NoNumber else Unban(TargetNumber(args)))
    ensures privileged ==>
      var ban := StartsWithEither(body, prefix, "dban ", "bandb ");
      var unban := StartsWithEither(body, prefix, "dunban ", "unbandb ");
      var grant := StartsWithEither(body, prefix, "addprem ", "premium ");
      var revoke := StartsWithEither(body, prefix, "delprem ", "unpremium ");
      var stats := body == prefix + "dbstats" || body == prefix + "databasestats";
      var top := body == prefix + "topusers" || body == prefix + "activeusers";
      var n := TargetNumber(args);
      && (!ban && !unban && grant ==> r == Some(if n == [] then NoNumber else GrantPremium(n)))
      && (!ban && !unban && !grant && revoke ==> r == Some(if n == [] then NoNumber else RevokePremium(n)))
      && (!ban && !unban && !grant && !revoke && stats ==> r == Some(Stats))
      && (!ban && !unban && !grant && !revoke && !stats && top ==> r == Some(TopUsers))
      && (r.None? <==> !ban && !unban && !grant && !revoke && !stats && !top)
  {
    if !privileged then None
    else if StartsWithEither(body, prefix, "dban ", "bandb ") then Some(WithNumber(args, n => Ban(n)))
    else if StartsWithEither(body, prefix, "dunban ", "unbandb ") then Some(WithNumber(args, n => Unban(n)))
    else if StartsWithEither(body, prefix, "addprem ", "premium ") then Some(WithNumber(args, n => GrantPremium(n)))
    else if StartsWithEither(body, prefix, "delprem ", "unpremium ") then Some(WithNumber(args, n => RevokePremium(n)))
    else if body == prefix + "dbstats" || body == prefix + "databasestats" then Some(Stats)
    else if body == prefix + "topusers" || body == prefix + "activeusers" then Some(TopUsers)
    else None
  }

  /** What an admin command does to the database; a write to an unreachable
      database is lost. */
  function ApplyAdmin(db: Option<Db>, a: AdminAction): (r: Option<Db>)
    ensures db.None? ==> r.None?
    ensures db.Some? ==> r.Some?
    ensures db.Some? && a.Ban? ==> r.value.banned == db.value.banned + {a.number}
    ensures db.Some? && a.Unban? ==> r.value.banned == db.value.banned - {a.number}
    ensures db.Some? && !a.Ban? && !a.Unban? ==> r.value.banned == db.value.banned
    ensures db.Some? && a.GrantPremium? ==> r.value.premium == db.value.premium + {a.number}
    ensures db.Some? && a.RevokePremium? ==> r.value.premium == db.value.premium - {a.number}
    ensures db.Some? && !a.GrantPremium? && !a.RevokePremium? ==> r.value.premium == db.value.premium
  {
    match db
    case None => None
    case Some(d) =>
      match a
      case Ban(n) => Some(d.(banned := d.banned + {n}))
      case Unban(n) => Some(d.(banned := d.banned - {n}))
      case GrantPremium(n) => Some(d.(premium := d.premium + {n}))
      case RevokePremium(n) => Some(d.(premium := d.premium - {n}))
      case _ => db
  }

  // ---------------------------------------------------------------------
  // The handler
  // ---------------------------------------------------------------------

  /** What the plugins see of a message. */
  datatype Context = Context(
    from: string, body: string, words: Words, isGroup: bool,
    sender: string, senderNumber: string)

  datatype Dispatch =
    | Dropped
    | BannedSender(number: string)
    | Admin(action: AdminAction)
    | ToPlugins(ctx: Context)

  datatype Received = Received(dispatch: Dispatch, db: Option<Db>)

  function ContextOf(key: Key, c: Content, prefix: string, botId: string): Context {
    var body := BodyOf(Unwrap(c));
    var sender := Sender(key, botId);
    Context(key.remoteJid, body, Tokenize(prefix, body), IsGroup(key.remoteJid),
            sender, SenderNumber(sender))
  }

  /** `messages.upsert` for one message: an empty message is dropped, a
      banned sender is turned away before anything else, an admin command
      from a creator or owner is carried out on the database, and any other
      message goes on to the plugins. */
  function Receive(key: Key, message: Option<Content>, prefix: string, botId: string,
                   db: Option<Db>, privileged: bool): (r: Received)
    ensures r.dispatch.Dropped? <==> message.None?
    ensures message.Some? ==>
      var ctx := ContextOf(key, message.value, prefix, botId);
      && (r.dispatch.BannedSender? <==> IsBanned(db, ctx.senderNumber))
      && (r.dispatch.BannedSender? ==> r.dispatch.number == ctx.senderNumber)
      && (r.dispatch.Admin? ==> privileged && !IsBanned(db, ctx.senderNumber))
      && (r.dispatch.ToPlugins? ==> r.dispatch.ctx == ctx && !IsBanned(db, ctx.senderNumber))
      && (!IsBanned(db, ctx.senderNumber) ==>
            var a := AdminCommand(prefix, ctx.body, ctx.words.args, privileged);
            && (r.dispatch.Admin? <==> a.Some?)
            && (r.dispatch.ToPlugins? <==> a.None?)
            && (r.dispatch.Admin? ==> a == Some(r.dispatch.action)))
    ensures !r.dispatch.Admin? ==> r.db == db
    ensures r.dispatch.Admin? ==> r.db == ApplyAdmin(db, r.dispatch.action)
  {
    match message
    case None => Received(Dropped, db)
    case Some(c) =>
      var ctx := ContextOf(key, c, prefix, botId);
      if IsBanned(db, ctx.senderNumber) then Received(BannedSender(ctx.senderNumber), db)
      else
        match AdminCommand(prefix, ctx.body, ctx.words.args, privileged)
        case Some(a) => Received(Admin(a), ApplyAdmin(db, a))
        case None => Received(ToPlugins(ctx), db)
  }

  /** `<prefix><word> <number>` starts with `<prefix><word> ` and has the
      number as its only argument; `cmd` is the word with its space. */
  lemma NumberCommandRead(prefix: string, cmd: string, n: string)
    requires All(prefix, Negate(IsSpace))
    requires |cmd| >= 2 && cmd[|cmd| - 1] == ' ' && All(cmd[..|cmd| - 1], Negate(IsSpace))
    requires n != [] && All(n, IsDigit)
    ensures StartsWith(prefix + cmd + n, prefix + cmd)
    ensures ArgsOf(prefix + cmd + n) == [n]
  {
    var word := cmd[..|cmd| - 1];
    var body := prefix + cmd + n;
    assert cmd == word + " ";
    assert body == prefix + word + " " + n;
    assert body[..|prefix + cmd|] == prefix + cmd;
    forall k | 0 <= k < |n| ensures Negate(IsSpace)(n[k]) {
      DigitNotSpace(n[k]);
    }
    assert Typed([n]);
    TokenizeReadsCommand(prefix, word, [n]);
    assert [prefix + word, n][1..] == [n];
    assert JoinWith([prefix + word] + [n], ' ') == body;
  }

  /** A message whose text is an admin command, from a sender who is not
      banned, is carried out on the database. */
  lemma AdminDispatch(key: Key, c: Content, prefix: string, botId: string, db: Option<Db>, a: AdminAction)
    requires !IsBanned(db, SenderNumber(Sender(key, botId)))
    requires AdminCommand(prefix, BodyOf(Unwrap(c)), ArgsOf(BodyOf(Unwrap(c))), true) == Some(a)
    ensures Receive(key, Some(c), prefix, botId, db, true) == Received(Admin(a), ApplyAdmin(db, a))
  {
  }

  /** The two command words, with their spaces, satisfy the shape
      `NumberCommandRead` asks for. */
  lemma CommandWords()
    ensures |"dban "| >= 2 && "dban "[4] == ' ' && All("dban "[..4], Negate(IsSpace))
    ensures |"dunban "| >= 2 && "dunban "[6] == ' ' && All("dunban "[..6], Negate(IsSpace))
  {
    assert "dban "[..4] == "dban";
    assert All("dban", Negate(IsSpace));
    assert "dunban "[..6] == "dunban";
    assert All("dunban", Negate(IsSpace));
  }

  lemma BanRead(prefix: string, n: string)
    requires All(prefix, Negate(IsSpace)) && n != [] && All(n, IsDigit)
    ensures var body := prefix + "dban " + n;
      AdminCommand(prefix, body, ArgsOf(body), true) == Some(Ban(n))
  {
    CommandWords();
    NumberCommandRead(prefix, "dban ", n);
    BanSelected(prefix, prefix + "dban " + n, n);
  }

  lemma BanSelected(prefix: string, body: string, n: string)
    requires StartsWith(body, prefix + "dban ")
    requires ArgsOf(body) == [n] && n != [] && All(n, IsDigit)
    ensures AdminCommand(prefix, body, ArgsOf(body), true) == Some(Ban(n))
  {
    assert TargetNumber([n]) == n;
  }

  lemma UnbanRead(prefix: string, n: string)
    requires All(prefix, Negate(IsSpace)) && n != [] && All(n, IsDigit)
    ensures var body := prefix + "dunban " + n;
      AdminCommand(prefix, body, ArgsOf(body), true) == Some(Unban(n))
  {
    CommandWords();
    NumberCommandRead(prefix, "dunban ", n);
    UnbanIsNotBan(prefix, n);
    UnbanSelected(prefix, prefix + "dunban " + n, n);
  }

  lemma UnbanSelected(prefix: string, body: string, n: string)
    requires !StartsWithEither(body, prefix, "dban ", "bandb ")
    requires StartsWith(body, prefix + "dunban ")
    requires ArgsOf(body) == [n] && n != [] && All(n, IsDigit)
    ensures AdminCommand(prefix, body, ArgsOf(body), true) == Some(Unban(n))
  {
    assert TargetNumber([n]) == n;
  }

  lemma UnbanIsNotBan(prefix: string, n: string)
    ensures !StartsWithEither(prefix + "dunban " + n, prefix, "dban ", "bandb ")
  {
    var rest := "dunban " + n;
    assert prefix + "dunban " + n == prefix + rest;
    assert rest[1] == 'u' && rest[0] == 'd';
    NotStartsWith(rest, "dban ", 1);
    NotStartsWith(rest, "bandb ", 0);
    StartsWithAfterPrefix(prefix, rest, "dban ");
    StartsWithAfterPrefix(prefix, rest, "bandb ");
  }

  lemma StartsWithAfterPrefix(p: string, x: string, y: string)
    ensures StartsWith(p + x, p + y) <==> StartsWith(x, y)
  {
    if StartsWith(x, y) {
      assert (p + x)[..|p + y|] == p + x[..|y|];
    }
    if StartsWith(p + x, p + y) {
      assert x[..|y|] == (p + x)[..|p + y|][|p|..];
    }
  }

  /** A string does not start with a word it differs from at some position. */
  lemma NotStartsWith(s: string, p: string, k: nat)
    requires k < |s| && k < |p| && s[k] != p[k]
    ensures !StartsWith(s, p)
  {
    if |p| <= |s| {
      assert s[..|p|][k] == s[k];
    }
  }

  /** The gate turns away a message whose sender number is banned ... */
  lemma GateStops(key: Key, c: Content, prefix: string, botId: string, db: Option<Db>, n: string)
    requires IsBanned(db, n) && SenderNumber(Sender(key, botId)) == n
    ensures Receive(key, Some(c), prefix, botId, db, false).dispatch == BannedSender(n)
  {
  }

  /** ... and lets through one whose number is not. */
  lemma GatePasses(key: Key, c: Content, prefix: string, botId: string, db: Option<Db>, n: string)
    requires !IsBanned(db, n) && SenderNumber(Sender(key, botId)) == n
    ensures !Receive(key, Some(c), prefix, botId, db, false).dispatch.BannedSender?
  {
  }

  /** `.dban <number>` from a creator or owner bans that number: the next
      message from a user with that number is turned away. */
  lemma BanTakesEffect(prefix: string, n: string, adminKey: Key, botId: string, db: Db, key: Key, c: Content)
    requires All(prefix, Negate(IsSpace)) && n != [] && All(n, IsDigit)
    requires !IsBanned(Some(db), SenderNumber(Sender(adminKey, botId)))
    requires SenderNumber(Sender(key, botId)) == n
    ensures var r := Receive(adminKey, Some(Conversation(prefix + "dban " + n)), prefix, botId, Some(db), true);
      && r.dispatch == Admin(Ban(n))
      && Receive(key, Some(c), prefix, botId, r.db, false).dispatch == BannedSender(n)
  {
    var body := prefix + "dban " + n;
    BanRead(prefix, n);
    AdminDispatch(adminKey, Conversation(body), prefix, botId, Some(db), Ban(n));
    GateStops(key, c, prefix, botId, ApplyAdmin(Some(db), Ban(n)), n);
  }

  /** `.dunban <number>` lifts the ban: the number's next message reaches
      the plugins or the admin commands again. */
  lemma UnbanTakesEffect(prefix: string, n: string, adminKey: Key, botId: string, db: Db, key: Key, c: Content)
    requires All(prefix, Negate(IsSpace)) && n != [] && All(n, IsDigit)
    requires !IsBanned(Some(db), SenderNumber(Sender(adminKey, botId)))
    requires SenderNumber(Sender(key, botId)) == n
    ensures var r := Receive(adminKey, Some(Conversation(prefix + "dunban " + n)), prefix, botId, Some(db), true);
      && r.dispatch == Admin(Unban(n))
      && !Receive(key, Some(c), prefix, botId, r.db, false).dispatch.BannedSender?
  {
    var body := prefix + "dunban " + n;
    UnbanRead(prefix, n);
    AdminDispatch(adminKey, Conversation(body), prefix, botId, Some(db), Unban(n));
    GatePasses(key, c, prefix, botId, ApplyAdmin(Some(db), Unban(n)), n);
  }

  // ---------------------------------------------------------------------
  // connection.update
  // ---------------------------------------------------------------------

  /** `DisconnectReason.loggedOut` of the WhatsApp library. */
  const LoggedOut: int := 401

  /** What a close event carries: no error object to read a status from
      (the handler throws), or the status code, which may be absent. */
  datatype Close = NoErrorOutput | StatusCode(code: Option<int>)

  /** Whether a closed connection is reopened: unless the status is
      `loggedOut`, and not when the event carries no error output. */
  function Reconnects(c: Close): (reconnect: bool)
    ensures reconnect ==> c.StatusCode?
    ensures c.StatusCode? && c.code.Some? ==> (reconnect <==> c.code.value != LoggedOut)
    ensures c.StatusCode? && c.code.None? ==> reconnect
  {
    match c
    case NoErrorOutput => false
    case StatusCode(code) => code != Some(LoggedOut)
  }
}

=== FILE: investment.dfy ===
/** The investment rules of `plugins/investment.js`: reading a lock period
    such as `7d` or `2w`, picking a company by number or by name, buying
    shares with money from the wallet, and summing a portfolio. The company
    catalogue (`database/companies.json`) is a parameter, in the key order
    of the file. */
module Investment {
  import opened Maybe
  import opened Text
  import Economy

  datatype Company = Company(key: string, price: int)

  /** The companies in `Object.keys` order. */
  type Catalogue = seq<Company>

  /** What the plugin takes for granted of its data file: every price is a
      positive whole number and, being object keys, no two keys are equal. */
  predicate ValidCatalogue(cs: Catalogue) {
    && (forall i :: 0 <= i < |cs| ==> cs[i].price > 0)
    && (forall i, j :: 0 <= i < j < |cs| ==> cs[i].key != cs[j].key)
  }

  /** `companyData[key]`: the company stored under exactly `key`. */
  function Lookup(cs: Catalogue, key: string): (r: Option<Company>)
    ensures r.Some? ==> r.value in cs && r.value.key == key
    ensures r.None? <==> forall i :: 0 <= i < |cs| ==> cs[i].key != key
  {
    if cs == [] then None
    else if cs[0].key == key then Some(cs[0])
    else
      var r := Lookup(cs[1..], key);
      assert forall i :: 1 <= i < |cs| ==> cs[i] == cs[1..][i - 1];
      r
  }

  // ---------------------------------------------------------------------
  // getDaysFromDuration
  // ---------------------------------------------------------------------

  /** The regex `(\d+)([dw])` matches at `i`: a digit run starts there and
      the character after the whole run is `d` or `w`. A shorter run could
      only be followed by another digit, so the greedy run is the only
      candidate. */
  predicate DurationAt(s: string, i: nat) {
    i < |s| && IsDigit(s[i]) && i + Span(s, i, IsDigit) < |s|
    && s[i + Span(s, i, IsDigit)] in "dw"
  }

  /** The regex read literally: `m >= 1` digits at `i`, then a unit letter. */
  predicate DigitsThenUnit(s: string, i: nat, m: nat) {
    1 <= m && i + m < |s| && (forall k :: i <= k < i + m ==> IsDigit(s[k])) && s[i + m] in "dw"
  }

  /** `DurationAt` is the regex's own definition: some run of one or more
      digits at `i` followed by a unit letter. */
  lemma DurationAtSpec(s: string, i: nat)
    ensures DurationAt(s, i) <==> exists m: nat :: DigitsThenUnit(s, i, m)
  {
    if DurationAt(s, i) {
      assert DigitsThenUnit(s, i, Span(s, i, IsDigit));
    }
    if exists m: nat :: DigitsThenUnit(s, i, m) {
      var m: nat :| DigitsThenUnit(s, i, m);
      var n := Span(s, i, IsDigit);
      assert !IsDigit(s[i + m]);
      assert n >= m;
      assert n <= m;
    }
  }

  /** The leftmost match at or after `from`. */
  function FindDuration(s: string, from: nat): (r: Option<nat>)
    ensures r.Some? ==> from <= r.value && DurationAt(s, r.value)
    ensures r.Some? ==> forall k: nat :: from <= k < r.value ==> !DurationAt(s, k)
    ensures r.None? ==> forall k: nat :: from <= k ==> !DurationAt(s, k)
    decreases |s| - from
  {
    if from >= |s| then None
    else if DurationAt(s, from) then Some(from)
    else FindDuration(s, from + 1)
  }

  /** The days a match at `i` stands for: the number, times seven for weeks. */
  function DaysAt(s: string, i: nat): (days: nat)
    requires DurationAt(s, i)
  {
    var n := Span(s, i, IsDigit);
    var num := DigitsValue(s[i..i + n], 10);
    if s[i + n] == 'w' then num * 7 else num
  }

  /** `getDaysFromDuration(dur)`: `null` when the lower-cased text holds no
      `<digits>d` or `<digits>w`; otherwise the leftmost one decides. */
  function GetDaysFromDuration(dur: string): (r: Option<nat>)
    ensures r.None? <==> forall i: nat :: !DurationAt(LowerStr(dur), i)
    ensures r.Some? ==> exists i: nat :: DurationAt(LowerStr(dur), i)
                          && (forall k: nat :: k < i ==> !DurationAt(LowerStr(dur), k))
                          && r.value == DaysAt(LowerStr(dur), i)
  {
    var s := LowerStr(dur);
    match FindDuration(s, 0)
    case None => None
    case Some(i) => Some(DaysAt(s, i))
  }

  /** A lock period written as a number and a unit letter, in either case,
      reads back as that many days or weeks. */
  lemma GetDaysReadsDuration(n: nat, unit: char)
    requires unit in "dDwW"
    ensures GetDaysFromDuration(ShowNat(n) + [unit]) ==
              Some(if unit in "wW" then n * 7 else n)
  {
    var t := ShowNat(n);
    var w := t + [unit];
    var s := LowerStr(w);
    assert forall k :: 0 <= k < |t| ==> s[k] == t[k] by {
      forall k | 0 <= k < |t| ensures s[k] == t[k] {
        assert w[k] == t[k];
        DigitNotUpper(t[k]);
      }
    }
    assert s[|t|] == Lower(unit);
    assert s[..|t|] == t;
    var m := Span(s, 0, IsDigit);
    assert !IsDigit(s[|t|]);
    assert forall k :: 0 <= k < |t| ==> IsDigit(s[k]);
    assert m == |t|;
    assert DurationAt(s, 0);
    assert s[0..m] == t;
    ShowNatValue(n);
  }

  lemma DigitNotUpper(c: char)
    requires IsDigit(c)
    ensures Lower(c) == c
  {
  }

  // ---------------------------------------------------------------------
  // initShares
  // ---------------------------------------------------------------------

  /** Gives `u` an empty holdings object unless it already has one. */
  function InitShares(eco: Economy.Ledger, u: Economy.UserId): (r: Economy.Ledger)
    requires u in eco
    ensures r.Keys == eco.Keys
    ensures r[u].shares.Some?
    ensures eco[u].shares.Some? ==> r[u] == eco[u]
    ensures eco[u].shares.None? ==> r[u] == eco[u].(shares := Some([]))
    ensures forall v :: v in eco && v != u ==> r[v] == eco[v]
  {
    if eco[u].shares.None? then eco[u := eco[u].(shares := Some([]))] else eco
  }

  /** Initialising twice is the same as initialising once. */
  lemma InitSharesIdempotent(eco: Economy.Ledger, u: Economy.UserId)
    requires u in eco
    ensures InitShares(InitShares(eco, u), u) == InitShares(eco, u)
  {
  }

  // ---------------------------------------------------------------------
  // company
  // ---------------------------------------------------------------------

  datatype Selection = NoInput | NotFound | Selected(key: string)

  /** The first company whose lower-cased key contains `input`. */
  function FirstContaining(cs: Catalogue, input: string, from: nat): (r: Option<nat>)
    ensures r.Some? ==> from <= r.value < |cs| && Contains(LowerStr(cs[r.value].key), input)
    ensures r.Some? ==> forall k :: from <= k < r.value ==> !Contains(LowerStr(cs[k].key), input)
    ensures r.None? ==> forall k :: from <= k < |cs| ==> !Contains(LowerStr(cs[k].key), input)
    decreases |cs| - from
  {
    if from >= |cs| then None
    else if Contains(LowerStr(cs[from].key), input) then Some(from)
    else FirstContaining(cs, input, from + 1)
  }

  /** `/^\d+$/`: a non-empty run of ASCII digits and nothing else. */
  predicate IsNumeral(s: string) {
    |s| >= 1 && All(s, IsDigit)
  }

  /** The `company` command on its text: a numeral picks the company at that
      1-based position, anything else the first key containing it. A key
      that is empty is falsy, so picking it is answered "not found". */
  function SelectCompany(cs: Catalogue, text: string): (r: Selection)
    ensures r.NoInput? <==> text == []
    ensures r.Selected? ==> r.key != []
    ensures text != [] && IsNumeral(Trim(LowerStr(text))) ==>
      var n := DigitsValue(Trim(LowerStr(text)), 10);
      (r.Selected? <==> 1 <= n <= |cs| && cs[n - 1].key != []) && (r.Selected? ==> r.key == cs[n - 1].key)
    ensures text != [] && !IsNumeral(Trim(LowerStr(text))) ==>
      var input := Trim(LowerStr(text));
      && (r.NotFound? <==>
            || (forall k :: 0 <= k < |cs| ==> !Contains(LowerStr(cs[k].key), input))
            || (exists i :: 0 <= i < |cs| && cs[i].key == [] && Contains(LowerStr(cs[i].key), input)
                            && forall k :: 0 <= k < i ==> !Contains(LowerStr(cs[k].key), input)))
      && (r.Selected? ==> exists i :: 0 <= i < |cs| && r.key == cs[i].key
                                      && Contains(LowerStr(cs[i].key), input)
                                      && forall k :: 0 <= k < i ==> !Contains(LowerStr(cs[k].key), input))
  {
    if text == [] then NoInput
    else
      var input := Trim(LowerStr(text));
      if IsNumeral(input) then
        var index := DigitsValue(input, 10) - 1;
        if 0 <= index < |cs| && cs[index].key != [] then Selected(cs[index].key) else NotFound
      else
        match FirstContaining(cs, input, 0)
        case None => NotFound
        case Some(i) => if cs[i].key == [] then NotFound else Selected(cs[i].key)
  }

  /** Every company is reachable by its position in the list, except one
      stored under the empty key. */
  lemma SelectByPosition(cs: Catalogue, n: nat)
    requires 1 <= n <= |cs|
    ensures SelectCompany(cs, ShowNat(n)) == if cs[n - 1].key == [] then NotFound else Selected(cs[n - 1].key)
  {
    var t := ShowNat(n);
    assert LowerStr(t) == t by {
      forall k | 0 <= k < |t| ensures LowerStr(t)[k] == t[k] {
        DigitNotUpper(t[k]);
      }
    }
    DigitNotSpace(t[0]);
    DigitNotSpace(t[|t| - 1]);
    TrimKeepsTrimmed(t);
    ShowNatValue(n);
  }

  /** A name that is a whole lower-cased non-empty key (and not a numeral)
      selects a company no later than that one in the list. */
  lemma SelectByName(cs: Catalogue, text: string, i: nat)
    requires text != [] && i < |cs| && cs[i].key != []
    requires !IsNumeral(Trim(LowerStr(text)))
    requires Trim(LowerStr(text)) == LowerStr(cs[i].key)
    ensures SelectCompany(cs, text).Selected?
    ensures exists j :: 0 <= j <= i && SelectCompany(cs, text).key == cs[j].key
  {
    var input := Trim(LowerStr(text));
    ContainsSpec(LowerStr(cs[i].key), input);
    assert OccursAt(LowerStr(cs[i].key), input, 0);
    assert input != [];
    var j := FirstContaining(cs, input, 0).value;
    ContainsSpec(LowerStr(cs[j].key), input);
    assert cs[j].key != [];
  }

  // ---------------------------------------------------------------------
  // buy
  // ---------------------------------------------------------------------

  /** The holdings object keyed by company. */
  function IndexOf(hs: Economy.Holdings, key: string, from: nat): (r: Option<nat>)
    ensures r.Some? ==> from <= r.value < |hs| && hs[r.value].0 == key
    ensures r.Some? ==> forall k :: from <= k < r.value ==> hs[k].0 != key
    ensures r.None? ==> forall k :: from <= k < |hs| ==> hs[k].0 != key
    decreases |hs| - from
  {
    if from >= |hs| then None
    else if hs[from].0 == key then Some(from)
    else IndexOf(hs, key, from + 1)
  }

  /** `shares[key]`. */
  function HoldingOf(hs: Economy.Holdings, key: string): (r: Option<Economy.Holding>)
  {
    match IndexOf(hs, key, 0)
    case None => None
    case Some(i) => Some(hs[i].1)
  }

  /** No company appears twice, as in a JavaScript object. */
  predicate UniqueKeys(hs: Economy.Holdings) {
    forall i, j :: 0 <= i < j < |hs| ==> hs[i].0 != hs[j].0
  }

  /** `shares[key] = h`: an existing entry is replaced in place, a new one
      goes last. */
  function Put(hs: Economy.Holdings, key: string, h: Economy.Holding): (r: Economy.Holdings)
    ensures HoldingOf(r, key) == Some(h)
    ensures forall k :: k != key ==> HoldingOf(r, k) == HoldingOf(hs, k)
    ensures UniqueKeys(hs) ==> UniqueKeys(r)
  {
    match IndexOf(hs, key, 0)
    case Some(i) =>
      var r := hs[i := (key, h)];
      assert IndexOf(r, key, 0) == Some(i) by { IndexOfSame(hs, r, key, 0, i); }
      forall k | k != key ensures HoldingOf(r, k) == HoldingOf(hs, k) {
        IndexOfOther(hs, i, (key, h), k);
      }
      r
    case None =>
      var r := hs + [(key, h)];
      assert IndexOf(r, key, 0) == Some(|hs|) by { IndexOfAppended(hs, (key, h), key, 0); }
      forall k | k != key ensures HoldingOf(r, k) == HoldingOf(hs, k) {
        IndexOfAppendedOther(hs, (key, h), k, 0);
      }
      r
  }

  lemma {:induction false} IndexOfSame(hs: Economy.Holdings, r: Economy.Holdings, key: string, from: nat, i: nat)
    requires |r| == |hs| && from <= i < |hs| && r[i].0 == key
    requires forall k :: from <= k < i ==> r[k] == hs[k] && hs[k].0 != key
    ensures IndexOf(r, key, from) == Some(i)
    decreases i - from
  {
    if from < i {
      IndexOfSame(hs, r, key, from + 1, i);
    }
  }

  lemma IndexOfOther(hs: Economy.Holdings, i: nat, x: (string, Economy.Holding), k: string)
    requires i < |hs| && hs[i].0 == x.0 && k != x.0
    ensures IndexOf(hs[i := x], k, 0) == IndexOf(hs, k, 0)
  {
    IndexOfUpdate(hs, i, x, k, 0);
  }

  lemma {:induction false} IndexOfUpdate(hs: Economy.Holdings, i: nat, x: (string, Economy.Holding), k: string, from: nat)
    requires i < |hs| && hs[i].0 == x.0 && k != x.0
    ensures IndexOf(hs[i := x], k, from) == IndexOf(hs, k, from)
    decreases |hs| - from
  {
    if from < |hs| {
      assert hs[i := x][from].0 == k <==> hs[from].0 == k;
      IndexOfUpdate(hs, i, x, k, from + 1);
    }
  }

  lemma {:induction false} IndexOfAppended(hs: Economy.Holdings, x: (string, Economy.Holding), key: string, from: nat)
    requires x.0 == key && from <= |hs|
    requires forall k :: from <= k < |hs| ==> hs[k].0 != key
    ensures IndexOf(hs + [x], key, from) == Some(|hs|)
    decreases |hs| - from
  {
    if from < |hs| {
      IndexOfAppended(hs, x, key, from + 1);
    }
  }

  lemma {:induction false} IndexOfAppendedOther(hs: Economy.Holdings, x: (string, Economy.Holding), k: string, from: nat)
    requires x.0 != k
    ensures IndexOf(hs + [x], k, from) == IndexOf(hs, k, from)
    decreases |hs| + 1 - from
  {
    if from < |hs| {
      assert (hs + [x])[from] == hs[from];
      IndexOfAppendedOther(hs, x, k, from + 1);
    }
  }

  /** The text of `buy`, split into its three words: company, amount and
      lock period, each already read as the plugin reads it. */
  datatype BuyRequest =
    | NoText
    | BadFormat
    | Request(company: string, amount: Option<int>, days: Option<nat>)

  function ParseBuy(text: string): (req: BuyRequest)
    ensures req.NoText? <==> text == []
    ensures text != [] ==> (req.BadFormat? <==> |SplitRuns(Trim(text), IsSpace)| != 3)
    ensures req.Request? ==>
      var parts := SplitRuns(Trim(text), IsSpace);
      && |parts| == 3
      && req == Request(LowerStr(parts[0]), ParseInt(parts[1]), GetDaysFromDuration(parts[2]))
  {
    if text == [] then NoText
    else
      var parts := SplitRuns(Trim(text), IsSpace);
      if |parts| != 3 then BadFormat
      else Request(LowerStr(parts[0]), ParseInt(parts[1]), GetDaysFromDuration(parts[2]))
  }

  /** Three words joined by single spaces split back into the same words. */
  lemma SplitThreeWords(a: string, b: string, c: string)
    requires a != [] && b != [] && c != []
    requires All(a, Negate(IsSpace)) && All(b, Negate(IsSpace)) && All(c, Negate(IsSpace))
    ensures SplitRuns(Trim(JoinWith([a, b, c], ' ')), IsSpace) == [a, b, c]
  {
    var parts := [a, b, c];
    assert Typed(parts);
    TrimJoin(parts);
    SplitRunsJoin(parts, ' ', IsSpace);
  }

  lemma DaysWordHasNoSpace(n: nat)
    ensures All(ShowNat(n) + "d", Negate(IsSpace))
  {
    var t := ShowNat(n);
    var d := t + "d";
    forall k | 0 <= k < |d| ensures !IsSpace(d[k]) {
      if k < |t| { DigitNotSpace(t[k]); } else { assert d[k] == 'd'; }
    }
    assert forall k :: 0 <= k < |d| ==> Negate(IsSpace)(d[k]);
  }

  /** `buy <name> <amount> <n>d` reads back the name, the amount and the days. */
  lemma ParseBuyReadsWords(name: string, amount: int, n: nat)
    requires name != [] && All(name, Negate(IsSpace))
    ensures ParseBuy(JoinWith([name, ShowInt(amount), ShowNat(n) + "d"], ' ')) ==
              Request(LowerStr(name), Some(amount), Some(n))
  {
    var a := ShowInt(amount);
    var d := ShowNat(n) + "d";
    var text := JoinWith([name, a, d], ' ');
    DaysWordHasNoSpace(n);
    SplitThreeWords(name, a, d);
    JoinWithStart([name, a, d], ' ');
    ParseShowInt(amount);
    GetDaysReadsDuration(n, 'd');
    assert ShowNat(n) + ['d'] == d;
  }

  datatype BuyReply =
    | BuyUsage
    | WrongFormat
    | UnknownCompany(company: string)
    | InvalidInput
    | TooLow(price: int)
    | CannotAfford(totalCost: int)
    | Bought(company: string, quantity: int, price: int, totalCost: int)

  datatype BuyStep = BuyStep(reply: BuyReply, eco: Economy.Ledger)

  /** The sender's ledger once `initUser` and `initShares` have run, which
      they do before anything else. */
  function Prepared(eco: Economy.Ledger, u: Economy.UserId): (r: Economy.Ledger)
    ensures u in r && r[u].shares.Some? && r.Keys == eco.Keys + {u}
    ensures forall v :: v in eco && v != u ==> r[v] == eco[v]
    ensures u in eco ==> r[u].balance == eco[u].balance && r[u].bank == eco[u].bank
  {
    InitShares(Economy.InitUser(eco, u), u)
  }

  /** Amount and lock period are acceptable: a positive amount and 1 to 30
      days. */
  predicate ValidOrder(amount: Option<int>, days: Option<nat>) {
    amount.Some? && amount.value > 0 && days.Some? && 1 <= days.value <= 30
  }

  /** The `buy` command on day `today`. */
  function Buy(eco: Economy.Ledger, cs: Catalogue, sender: Economy.UserId,
               req: BuyRequest, today: int): (r: BuyStep)
    requires ValidCatalogue(cs)
    ensures var e0 := Prepared(eco, sender);
      && r.eco.Keys == e0.Keys
      && (forall v :: v in e0 && v != sender ==> r.eco[v] == e0[v])
      && (!r.reply.Bought? ==> r.eco == e0)
      && (r.reply == BuyUsage <==> req.NoText?)
      && (r.reply == WrongFormat <==> req.BadFormat?)
      && (r.reply.UnknownCompany? <==> req.Request? && Lookup(cs, req.company).None?)
      && (r.reply == InvalidInput <==>
            req.Request? && Lookup(cs, req.company).Some? && !ValidOrder(req.amount, req.days))
      && (req.Request? && Lookup(cs, req.company).Some? && ValidOrder(req.amount, req.days) ==>
            var price := Lookup(cs, req.company).value.price;
            var amount := req.amount.value;
            && (r.reply.TooLow? <==> amount < price)
            && (r.reply.CannotAfford? <==> amount >= price && e0[sender].balance < (amount / price) * price)
            && (r.reply.Bought? <==> amount >= price && e0[sender].balance >= (amount / price) * price))
      && (r.reply.Bought? ==>
            r.eco[sender] == e0[sender].(balance := e0[sender].balance - r.reply.totalCost,
                                         shares := r.eco[sender].shares))
  {
    var e0 := Prepared(eco, sender);
    match req
    case NoText => BuyStep(BuyUsage, e0)
    case BadFormat => BuyStep(WrongFormat, e0)
    case Request(company, amount, days) =>
      match Lookup(cs, company)
      case None => BuyStep(UnknownCompany(company), e0)
      case Some(c) =>
        if !ValidOrder(amount, days) then BuyStep(InvalidInput, e0)
        else Purchase(e0, sender, company, c.price, amount.value, days.value, today)
  }

  /** Euclidean division by a positive price brackets the amount. */
  lemma FloorBounds(amount: int, price: int)
    requires price > 0
    ensures (amount / price) * price <= amount < (amount / price) * price + price
  {
  }

  /** The purchase once the company and a valid order are known: whole
      shares only, the cost the largest multiple of the price not above the
      amount, refused when no share fits or the wallet cannot pay. */
  function Purchase(e0: Economy.Ledger, sender: Economy.UserId, company: string, price: int,
                    amount: int, days: nat, today: int): (r: BuyStep)
    requires sender in e0 && e0[sender].shares.Some? && price > 0
    ensures r.reply.TooLow? || r.reply.CannotAfford? || r.reply.Bought?
    ensures r.reply.TooLow? <==> amount < price
    ensures r.reply.Bought? <==> amount >= price && e0[sender].balance >= (amount / price) * price
    ensures r.reply.TooLow? ==> r.reply.price == price
    ensures r.reply.CannotAfford? ==> r.reply.totalCost == (amount / price) * price
    ensures r.eco.Keys == e0.Keys
    ensures forall v :: v in e0 && v != sender ==> r.eco[v] == e0[v]
    ensures !r.reply.Bought? ==> r.eco == e0
    ensures r.reply.Bought? ==>
      var b := r.reply;
      && b.company == company && b.price == price
      && b.quantity >= 1 && b.totalCost == b.quantity * price
      && b.totalCost <= amount < b.totalCost + price
      && r.eco[sender].balance == e0[sender].balance - b.totalCost >= 0
      && r.eco[sender] == e0[sender].(balance := e0[sender].balance - b.totalCost,
                                      shares := r.eco[sender].shares)
      && r.eco[sender].bank == e0[sender].bank
      && r.eco[sender].clan == e0[sender].clan
      && r.eco[sender].lastAttendance == e0[sender].lastAttendance
      && r.eco[sender].shares.Some?
      && HoldingOf(r.eco[sender].shares.value, company) ==
           Some(Economy.Holding(b.quantity, price, b.totalCost, today + days, today, days))
      && (forall k :: k != company ==>
            HoldingOf(r.eco[sender].shares.value, k) == HoldingOf(e0[sender].shares.value, k))
  {
    var quantity := amount / price;
    var totalCost := quantity * price;
    FloorBounds(amount, price);
    if quantity <= 0 then BuyStep(TooLow(price), e0)
    else if e0[sender].balance < totalCost then BuyStep(CannotAfford(totalCost), e0)
    else
      var h := Economy.Holding(quantity, price, totalCost, today + days, today, days);
      var u := e0[sender];
      var u' := u.(balance := u.balance - totalCost, shares := Some(Put(u.shares.value, company, h)));
      BuyStep(Bought(company, quantity, price, totalCost), e0[sender := u'])
  }

  /** Shares are whole: the cost is the largest multiple of the price not
      above the amount, at least one share is bought, and the wallet pays
      exactly the cost. Every other field of the record is kept, and the
      holding of that company, and only it, becomes the new purchase. */
  lemma BuyArithmetic(eco: Economy.Ledger, cs: Catalogue, sender: Economy.UserId,
                      req: BuyRequest, today: int)
    requires ValidCatalogue(cs)
    requires Buy(eco, cs, sender, req, today).reply.Bought?
    ensures var r := Buy(eco, cs, sender, req, today);
      var e0 := Prepared(eco, sender);
      var b := r.reply;
      && req.Request? && ValidOrder(req.amount, req.days)
      && Lookup(cs, req.company) == Some(Company(b.company, b.price))
      && b.quantity >= 1 && b.totalCost == b.quantity * b.price
      && b.totalCost <= req.amount.value < b.totalCost + b.price
      && r.eco[sender].balance == e0[sender].balance - b.totalCost >= 0
      && r.eco[sender] == e0[sender].(balance := e0[sender].balance - b.totalCost,
                                      shares := r.eco[sender].shares)
      && r.eco[sender].bank == e0[sender].bank
      && r.eco[sender].clan == e0[sender].clan
      && r.eco[sender].lastAttendance == e0[sender].lastAttendance
      && r.eco[sender].shares.Some?
      && HoldingOf(r.eco[sender].shares.value, b.company) ==
           Some(Economy.Holding(b.quantity, b.price, b.totalCost,
                                today + req.days.value, today, req.days.value))
      && (forall k :: k != b.company ==>
            HoldingOf(r.eco[sender].shares.value, k) == HoldingOf(e0[sender].shares.value, k))
  {
    var c := Lookup(cs, req.company).value;
    assert c.price > 0;
    var e0 := Prepared(eco, sender);
    assert Buy(eco, cs, sender, req, today) ==
           Purchase(e0, sender, req.company, c.price, req.amount.value, req.days.value, today);
  }

  /** Buying never overdraws a wallet that was not overdrawn. */
  lemma BuyKeepsSolvent(eco: Economy.Ledger, cs: Catalogue, sender: Economy.UserId,
                        req: BuyRequest, today: int)
    requires ValidCatalogue(cs) && Economy.Solvent(eco)
    ensures Economy.Solvent(Buy(eco, cs, sender, req, today).eco)
  {
    var e0 := Prepared(eco, sender);
    assert Economy.Solvent(e0);
    if Buy(eco, cs, sender, req, today).reply.Bought? {
      BuyArithmetic(eco, cs, sender, req, today);
    }
  }

  // ---------------------------------------------------------------------
  // portfolio
  // ---------------------------------------------------------------------

  /** `data?.price || share.boughtAt`: today's price of the company, or the
      purchase price when the company is gone or priced at zero. */
  function CurrentPrice(cs: Catalogue, key: string, h: Economy.Holding): int {
    match Lookup(cs, key)
    case Some(c) => if c.price != 0 then c.price else h.boughtAt
    case None => h.boughtAt
  }

  function CurrentValue(cs: Catalogue, x: (string, Economy.Holding)): int {
    x.1.quantity * CurrentPrice(cs, x.0, x.1)
  }

  function SumInvested(hs: Economy.Holdings): int {
    if hs == [] then 0 else SumInvested(hs[..|hs| - 1]) + hs[|hs| - 1].1.totalInvested
  }

  function SumCurrent(cs: Catalogue, hs: Economy.Holdings): int {
    if hs == [] then 0 else SumCurrent(cs, hs[..|hs| - 1]) + CurrentValue(cs, hs[|hs| - 1])
  }

  /** The loop of the `portfolio` command: the sums of the amounts invested
      and of the current values over all holdings, and their difference. */
  method PortfolioTotals(cs: Catalogue, hs: Economy.Holdings)
    returns (invested: int, current: int, profit: int)
    ensures invested == SumInvested(hs)
    ensures current == SumCurrent(cs, hs)
    ensures profit == SumCurrent(cs, hs) - SumInvested(hs)
  {
    invested, current := 0, 0;
    var i := 0;
    while i < |hs|
      invariant 0 <= i <= |hs|
      invariant invested == SumInvested(hs[..i])
      invariant current == SumCurrent(cs, hs[..i])
    {
      assert hs[..i + 1][..i] == hs[..i];
      invested := invested + hs[i].1.totalInvested;
      current := current + CurrentValue(cs, hs[i]);
      i := i + 1;
    }
    assert hs[..|hs|] == hs;
    profit := current - invested;
  }

  datatype PortfolioReply = EmptyPortfolio | Summary(invested: int, current: int, profit: int)

  /** The `portfolio` command: an empty portfolio is reported as such,
      otherwise the totals and the profit. */
  method Portfolio(eco: Economy.Ledger, cs: Catalogue, sender: Economy.UserId)
    returns (reply: PortfolioReply, eco': Economy.Ledger)
    ensures eco' == Prepared(eco, sender)
    ensures reply.EmptyPortfolio? <==> eco'[sender].shares.value == []
    ensures reply.Summary? ==>
      && reply.invested == SumInvested(eco'[sender].shares.value)
      && reply.current == SumCurrent(cs, eco'[sender].shares.value)
      && reply.profit == reply.current - reply.invested
  {
    eco' := Prepared(eco, sender);
    var hs := eco'[sender].shares.value;
    if hs == [] {
      reply := EmptyPortfolio;
    } else {
      var invested, current, profit := PortfolioTotals(cs, hs);
      reply := Summary(invested, current, profit);
    }
  }

  lemma {:induction false} SumInvestedUpdate(hs: Economy.Holdings, i: nat, x: (string, Economy.Holding))
    requires i < |hs|
    ensures SumInvested(hs[i := x]) == SumInvested(hs) - hs[i].1.totalInvested + x.1.totalInvested
  {
    var n := |hs| - 1;
    if i == n {
      assert hs[i := x][..n] == hs[..n];
    } else {
      assert hs[i := x][..n] == hs[..n][i := x];
      SumInvestedUpdate(hs[..n], i, x);
    }
  }

  lemma {:induction false} SumCurrentUpdate(cs: Catalogue, hs: Economy.Holdings, i: nat, x: (string, Economy.Holding))
    requires i < |hs|
    ensures SumCurrent(cs, hs[i := x]) == SumCurrent(cs, hs) - CurrentValue(cs, hs[i]) + CurrentValue(cs, x)
  {
    var n := |hs| - 1;
    if i == n {
      assert hs[i := x][..n] == hs[..n];
    } else {
      assert hs[i := x][..n] == hs[..n][i := x];
      SumCurrentUpdate(cs, hs[..n], i, x);
    }
  }

  /** What `shares[key] = h` does to the totals: the holding it replaces, if
      any, drops out, and `h` comes in. */
  lemma PutTotals(cs: Catalogue, hs: Economy.Holdings, key: string, h: Economy.Holding)
    ensures var old_ := HoldingOf(hs, key);
      && SumInvested(Put(hs, key, h)) ==
           SumInvested(hs) + h.totalInvested - (if old_.Some? then old_.value.totalInvested else 0)
      && SumCurrent(cs, Put(hs, key, h)) ==
           SumCurrent(cs, hs) + CurrentValue(cs, (key, h))
             - (if old_.Some? then CurrentValue(cs, (key, old_.value)) else 0)
  {
    match IndexOf(hs, key, 0)
    case Some(i) =>
      assert hs[i] == (key, hs[i].1);
      SumInvestedUpdate(hs, i, (key, h));
      SumCurrentUpdate(cs, hs, i, (key, h));
    case None =>
      assert (hs + [(key, h)])[..|hs|] == hs;
  }

  /** A fresh purchase is worth what it cost, so buying into a company the
      portfolio did not hold leaves the profit unchanged; buying into one it
      held replaces the earlier holding, and that holding's profit (and its
      shares) are gone from the portfolio. */
  lemma BuyProfit(eco: Economy.Ledger, cs: Catalogue, sender: Economy.UserId,
                  req: BuyRequest, today: int)
    requires ValidCatalogue(cs)
    requires Buy(eco, cs, sender, req, today).reply.Bought?
    ensures var r := Buy(eco, cs, sender, req, today);
      var before := Prepared(eco, sender)[sender].shares.value;
      var after := r.eco[sender].shares.value;
      var old_ := HoldingOf(before, r.reply.company);
      SumCurrent(cs, after) - SumInvested(after) ==
        SumCurrent(cs, before) - SumInvested(before)
          - (if old_.Some? then CurrentValue(cs, (r.reply.company, old_.value)) - old_.value.totalInvested else 0)
  {
    var r := Buy(eco, cs, sender, req, today);
    BuyArithmetic(eco, cs, sender, req, today);
    var b := r.reply;
    var before := Prepared(eco, sender)[sender].shares.value;
    var h := Economy.Holding(b.quantity, b.price, b.totalCost,
                             today + req.days.value, today, req.days.value);
    assert r.eco[sender].shares.value == Put(before, b.company, h);
    PutTotals(cs, before, b.company, h);
    assert CurrentPrice(cs, b.company, h) == b.price;
  }
}

=== FILE: maybe.dfy ===
/** The optional value used throughout the model: JavaScript's `null` /
    `undefined` results (a failed regex match, a missing mention, an absent
    caption) become `None`. */
module Maybe {

  datatype Option<+T> = None | Some(value: T) {

    /** Returns the value in `Some`, or `default` for `None`. */
    function GetOr(default: T): T {
      match this
      case Some(v) => v
      case None => default
    }
  }
}

=== FILE: text.dfy ===
/** The pieces of JavaScript string semantics the bot relies on: the `\s`
    character class and `trim`, ASCII case folding, `split` / `join`,
    `includes`, `startsWith` / `endsWith`, the `replace(/[^0-9]/g, '')`
    digit filter, and `parseInt`. A `char` here is a Unicode scalar value;
    where the source measures `.length`, which counts UTF-16 code units,
    the model uses `Utf16Length`. */
module Text {
  import opened Maybe

  // ---------------------------------------------------------------------
  // Character classes
  // ---------------------------------------------------------------------

  /** The characters `\s` matches and `trim` removes: ECMAScript WhiteSpace
      and LineTerminator. */
  predicate IsSpace(c: char) {
    || c == ' ' || c == '\t' || c == '\n' || c == '\r'
    || c == '\U{000B}' || c == '\U{000C}' || c == '\U{00A0}' || c == '\U{1680}'
    || ('\U{2000}' <= c <= '\U{200A}')
    || c == '\U{2028}' || c == '\U{2029}' || c == '\U{202F}' || c == '\U{205F}'
    || c == '\U{3000}' || c == '\U{FEFF}'
  }

  /** The characters `.` does not match unless the `s` flag is set. */
  predicate IsLineTerminator(c: char) {
    c == '\n' || c == '\r' || c == '\U{2028}' || c == '\U{2029}'
  }

  predicate IsDigit(c: char) {
    '0' <= c <= '9'
  }

  /** The number of UTF-16 code units `c` takes: two for a character outside
      the Basic Multilingual Plane (a surrogate pair), one otherwise. */
  function Utf16Units(c: char): (n: nat)
    ensures n == 1 || n == 2
    ensures n == 2 <==> c >= '\U{10000}'
  {
    if c >= '\U{10000}' then 2 else 1
  }

  /** JavaScript's `.length` of a string. */
  function Utf16Length(s: string): (n: nat)
    ensures |s| <= n <= 2 * |s|
    ensures n == 0 <==> s == []
  {
    if s == [] then 0 else Utf16Units(s[0]) + Utf16Length(s[1..])
  }

  /** `.length` adds up over concatenation. */
  lemma {:induction false} Utf16LengthAppend(a: string, b: string)
    ensures Utf16Length(a + b) == Utf16Length(a) + Utf16Length(b)
    decreases |a|
  {
    if a != [] {
      assert (a + b)[1..] == a[1..] + b;
      Utf16LengthAppend(a[1..], b);
    } else {
      assert a + b == b;
    }
  }

  /** `.length` counts characters exactly when none lies outside the Basic
      Multilingual Plane, and counts one extra unit for each one that does. */
  lemma {:induction false} Utf16LengthOfBmp(s: string)
    ensures Utf16Length(s) == |s| <==> forall k :: 0 <= k < |s| ==> s[k] < '\U{10000}'
    decreases |s|
  {
    if s != [] {
      Utf16LengthOfBmp(s[1..]);
      assert forall k :: 1 <= k < |s| ==> s[k] == s[1..][k - 1];
      if s[0] >= '\U{10000}' {
        assert Utf16Length(s) == 2 + Utf16Length(s[1..]) > |s|;
      }
    }
  }

  lemma DigitNotSpace(c: char)
    requires IsDigit(c)
    ensures !IsSpace(c)
  {
    assert 48 <= c as int <= 57;
  }

  /** `toLowerCase` on one character, as far as it can yield an ASCII
      letter: `A`-`Z`, and U+212A KELVIN SIGN, which folds to `k`. */
  function Lower(c: char): char {
    if 'A' <= c <= 'Z' then (c as int + 32) as char
    else if c == '\U{212A}' then 'k'
    else c
  }

  function Upper(c: char): char {
    if 'a' <= c <= 'z' then (c as int - 32) as char else c
  }

  /** `toLowerCase`, restricted to the characters `Lower` folds (see README). */
  function LowerStr(s: string): (r: string)
    ensures |r| == |s|
    ensures forall k :: 0 <= k < |s| ==> r[k] == Lower(s[k])
  {
    seq(|s|, k requires 0 <= k < |s| => Lower(s[k]))
  }

  function Negate(f: char -> bool): char -> bool {
    x => !f(x)
  }

  predicate All(s: string, f: char -> bool) {
    forall k :: 0 <= k < |s| ==> f(s[k])
  }

  // ---------------------------------------------------------------------
  // Spans, filtering and trimming
  // ---------------------------------------------------------------------

  /** The length of the longest run of characters satisfying `f` that starts at `i`. */
  function Span(s: string, i: nat, f: char -> bool): (n: nat)
    requires i <= |s|
    ensures i + n <= |s|
    ensures forall k :: i <= k < i + n ==> f(s[k])
    ensures i + n == |s| || !f(s[i + n])
    decreases |s| - i
  {
    if i == |s| || !f(s[i]) then 0 else 1 + Span(s, i + 1, f)
  }

  /** The characters of `s` that satisfy `f`, in order. */
  function Filter(s: string, f: char -> bool): (r: string)
    ensures |r| <= |s|
    ensures All(r, f)
  {
    if s == [] then [] else (if f(s[0]) then [s[0]] else []) + Filter(s[1..], f)
  }

  lemma {:induction false} FilterAppend(a: string, b: string, f: char -> bool)
    ensures Filter(a + b, f) == Filter(a, f) + Filter(b, f)
    decreases |a|
  {
    if a == [] {
      assert a + b == b;
    } else {
      var h := if f(a[0]) then [a[0]] else [];
      assert (a + b)[0] == a[0];
      assert (a + b)[1..] == a[1..] + b;
      assert Filter(a + b, f) == h + Filter(a[1..] + b, f);
      FilterAppend(a[1..], b, f);
      assert Filter(a, f) == h + Filter(a[1..], f);
    }
  }

  lemma {:induction false} FilterKeepsAll(s: string, f: char -> bool)
    requires All(s, f)
    ensures Filter(s, f) == s
    decreases |s|
  {
    if s != [] {
      FilterKeepsAll(s[1..], f);
    }
  }

  lemma {:induction false} FilterDropsAll(s: string, f: char -> bool)
    requires All(s, Negate(f))
    ensures Filter(s, f) == []
    decreases |s|
  {
    if s != [] {
      assert Negate(f)(s[0]);
      FilterDropsAll(s[1..], f);
    }
  }

  /** Filtering leaves nothing exactly when no character is accepted. */
  lemma {:induction false} FilterEmpty(s: string, f: char -> bool)
    ensures Filter(s, f) == [] <==> All(s, Negate(f))
    decreases |s|
  {
    if s != [] {
      FilterEmpty(s[1..], f);
      assert forall k :: 1 <= k < |s| ==> s[k] == s[1..][k - 1];
      if f(s[0]) {
        assert Filter(s, f)[0] == s[0];
        assert !Negate(f)(s[0]);
      } else {
        assert Filter(s, f) == Filter(s[1..], f);
        assert All(s, Negate(f)) <==> All(s[1..], Negate(f));
      }
    }
  }

  /** Keeping the characters `f` accepts twice is the same as keeping them once. */
  lemma FilterIdempotent(s: string, f: char -> bool)
    ensures Filter(Filter(s, f), f) == Filter(s, f)
  {
    FilterKeepsAll(Filter(s, f), f);
  }

  /** The number of whitespace characters at the end of `s`. */
  function TrailingSpaces(s: string): (n: nat)
    ensures n <= |s|
    ensures forall k :: |s| - n <= k < |s| ==> IsSpace(s[k])
    ensures n == |s| || !IsSpace(s[|s| - n - 1])
  {
    if s == [] || !IsSpace(s[|s| - 1]) then 0 else 1 + TrailingSpaces(s[..|s| - 1])
  }

  /** `String.prototype.trim`: the slice of `s` left after removing leading and
      trailing whitespace. */
  function Trim(s: string): (r: string)
    ensures r == [] || (!IsSpace(r[0]) && !IsSpace(r[|r| - 1]))
  {
    var i := Span(s, 0, IsSpace);
    var t := TrailingSpaces(s[i..]);
    s[i..|s| - t]
  }

  /** `trim` removes white space from both ends and nothing else. */
  lemma TrimIsSlice(s: string)
    ensures exists i, j :: 0 <= i <= j <= |s| && Trim(s) == s[i..j]
                          && All(s[..i], IsSpace) && All(s[j..], IsSpace)
  {
    var i := Span(s, 0, IsSpace);
    var t := TrailingSpaces(s[i..]);
    var j := |s| - t;
    assert All(s[..i], IsSpace);
    assert All(s[j..], IsSpace) by {
      forall k | 0 <= k < |s| - j ensures IsSpace(s[j..][k]) {
        assert s[j..][k] == s[i..][|s[i..]| - t + k];
      }
    }
    assert Trim(s) == s[i..j];
  }

  /** A string without whitespace at either end is its own trim. */
  lemma TrimKeepsTrimmed(s: string)
    requires s == [] || (!IsSpace(s[0]) && !IsSpace(s[|s| - 1]))
    ensures Trim(s) == s
  {
    if s != [] {
      assert Span(s, 0, IsSpace) == 0;
      assert TrailingSpaces(s) == 0;
    }
  }

  /** Trimming an already trimmed string changes nothing. */
  lemma TrimIdempotent(s: string)
    ensures Trim(Trim(s)) == Trim(s)
  {
    var r := Trim(s);
    if r != [] {
      assert Span(r, 0, IsSpace) == 0;
      assert TrailingSpaces(r) == 0;
    }
  }

  // ---------------------------------------------------------------------
  // split / join
  // ---------------------------------------------------------------------

  /** `s.split(c)` for a one-character separator: every occurrence of `c`
      separates two parts, so empty parts are kept. */
  function SplitOn(s: string, c: char): (parts: seq<string>)
    ensures |parts| >= 1
    ensures forall i :: 0 <= i < |parts| ==> c !in parts[i]
    decreases |s|
  {
    var i := Span(s, 0, x => x != c);
    if i == |s| then
      assert forall k :: 0 <= k < |s| ==> s[k] != c;
      [s]
    else
      assert forall k :: 0 <= k < |s[..i]| ==> s[..i][k] != c;
      [s[..i]] + SplitOn(s[i + 1..], c)
  }

  /** `parts.join(c)`. */
  function JoinWith(parts: seq<string>, c: char): string {
    if |parts| == 0 then []
    else if |parts| == 1 then parts[0]
    else parts[0] + [c] + JoinWith(parts[1..], c)
  }

  /** Joining the parts of a split with the same separator gives the input back. */
  lemma {:induction false} JoinSplitOn(s: string, c: char)
    ensures JoinWith(SplitOn(s, c), c) == s
    decreases |s|
  {
    var i := Span(s, 0, x => x != c);
    if i < |s| {
      var rest := SplitOn(s[i + 1..], c);
      JoinSplitOn(s[i + 1..], c);
      assert ([s[..i]] + rest)[1..] == rest;
      assert s == s[..i] + [c] + s[i + 1..];
    }
  }

  /** Splitting a join of separator-free parts gives the parts back. */
  lemma {:induction false} SplitOnJoin(parts: seq<string>, c: char)
    requires |parts| >= 1
    requires forall i :: 0 <= i < |parts| ==> c !in parts[i]
    ensures SplitOn(JoinWith(parts, c), c) == parts
    decreases |parts|
  {
    var s := JoinWith(parts, c);
    var p0 := parts[0];
    var i := Span(s, 0, x => x != c);
    if |parts| == 1 {
      assert s == p0;
      assert forall k :: 0 <= k < |s| ==> s[k] != c;
    } else {
      var tail := JoinWith(parts[1..], c);
      assert s == p0 + [c] + tail;
      assert s[|p0|] == c;
      assert forall k :: 0 <= k < |p0| ==> s[k] == p0[k] && s[k] != c;
      assert i == |p0|;
      assert s[..i] == p0;
      assert s[i + 1..] == tail;
      SplitOnJoin(parts[1..], c);
    }
  }

  /** The first part of `s.split(c)`: everything before the first `c`. */
  function BeforeFirst(s: string, c: char): (r: string)
    ensures c !in r
    ensures |r| <= |s| && r == s[..|r|]
    ensures |r| == |s| || s[|r|] == c
  {
    SplitOn(s, c)[0]
  }

  /** `s.split(re)` for a regex matching one or more characters of a class `f`
      (`/ +/`, `/\s+/`): each maximal run separates two tokens. */
  function SplitRuns(s: string, f: char -> bool): (parts: seq<string>)
    ensures |parts| >= 1
    ensures forall i :: 0 <= i < |parts| ==> All(parts[i], Negate(f))
    decreases |s|
  {
    var i := Span(s, 0, Negate(f));
    if i == |s| then [s]
    else
      assert f(s[i]);
      var j := i + Span(s, i, f);
      assert All(s[..i], Negate(f));
      [s[..i]] + SplitRuns(s[j..], f)
  }

  function Concat(parts: seq<string>): string {
    if |parts| == 0 then [] else parts[0] + Concat(parts[1..])
  }

  /** Splitting on separator runs loses exactly the separators. */
  lemma {:induction false} SplitRunsKeepsContent(s: string, f: char -> bool)
    ensures Concat(SplitRuns(s, f)) == Filter(s, Negate(f))
    decreases |s|
  {
    var i := Span(s, 0, Negate(f));
    if i == |s| {
      FilterKeepsAll(s, Negate(f));
      assert Concat([s]) == s + Concat([]);
    } else {
      assert f(s[i]);
      var j := i + Span(s, i, f);
      var rest := SplitRuns(s[j..], f);
      assert SplitRuns(s, f) == [s[..i]] + rest;
      assert ([s[..i]] + rest)[1..] == rest;
      assert s == s[..i] + s[i..j] + s[j..];
      forall k | 0 <= k < |s[i..j]| ensures f(s[i..j][k]) {
        assert s[i..j][k] == s[i + k];
      }
      FilterTokenRun(s[..i], s[i..j], s[j..], f);
      SplitRunsKeepsContent(s[j..], f);
    }
  }

  /** Filtering a token followed by a run of separators keeps just the token. */
  lemma {:induction false} FilterTokenRun(a: string, b: string, c: string, f: char -> bool)
    requires All(a, Negate(f))
    requires forall k :: 0 <= k < |b| ==> f(b[k])
    ensures Filter(a + b + c, Negate(f)) == a + Filter(c, Negate(f))
    decreases |a|
  {
    if a == [] {
      assert a + b + c == b + c;
      FilterSkipsRun(b, c, f);
    } else {
      var s := a + b + c;
      assert s[0] == a[0] && Negate(f)(a[0]);
      assert s[1..] == a[1..] + b + c;
      FilterTokenRun(a[1..], b, c, f);
      assert Filter(s, Negate(f)) == [a[0]] + Filter(s[1..], Negate(f));
      assert a == [a[0]] + a[1..];
    }
  }

  /** Filtering skips a leading run of separators. */
  lemma {:induction false} FilterSkipsRun(b: string, c: string, f: char -> bool)
    requires forall k :: 0 <= k < |b| ==> f(b[k])
    ensures Filter(b + c, Negate(f)) == Filter(c, Negate(f))
    decreases |b|
  {
    if b != [] {
      var s := b + c;
      assert s[0] == b[0] && !Negate(f)(b[0]);
      assert s[1..] == b[1..] + c;
      assert Filter(s, Negate(f)) == Filter(s[1..], Negate(f));
      FilterSkipsRun(b[1..], c, f);
    } else {
      assert b + c == c;
    }
  }

  /** A string that neither starts nor ends with a separator splits into
      non-empty tokens. */
  lemma {:induction false} SplitRunsNonEmpty(s: string, f: char -> bool)
    requires s != [] && !f(s[0]) && !f(s[|s| - 1])
    ensures forall i :: 0 <= i < |SplitRuns(s, f)| ==> SplitRuns(s, f)[i] != []
    decreases |s|
  {
    var i := Span(s, 0, Negate(f));
    assert Negate(f)(s[0]);
    if i < |s| {
      assert f(s[i]);
      var n := Span(s, i, f);
      var j := i + n;
      assert n >= 1;
      assert j < |s| by {
        assert i + n - 1 < |s| && f(s[i + n - 1]);
      }
      assert !f(s[j]);
      SplitRunsNonEmpty(s[j..], f);
    }
  }

  lemma JoinWithStart(parts: seq<string>, c: char)
    requires |parts| >= 1 && parts[0] != []
    ensures JoinWith(parts, c) != [] && JoinWith(parts, c)[0] == parts[0][0]
  {
  }

  /** Splitting a single-space join of non-empty, separator-free tokens gives
      the tokens back: the run split and `join` are inverse on such tokens. */
  lemma {:induction false} SplitRunsJoin(parts: seq<string>, c: char, f: char -> bool)
    requires f(c)
    requires |parts| >= 1
    requires forall i :: 0 <= i < |parts| ==> parts[i] != [] && All(parts[i], Negate(f))
    ensures SplitRuns(JoinWith(parts, c), f) == parts
    decreases |parts|
  {
    var s := JoinWith(parts, c);
    var p0 := parts[0];
    var i := Span(s, 0, Negate(f));
    if |parts| == 1 {
      assert s == p0;
      assert All(s, Negate(f));
    } else {
      var tail := JoinWith(parts[1..], c);
      JoinWithStart(parts[1..], c);
      assert s == p0 + [c] + tail;
      assert !Negate(f)(s[|p0|]);
      assert forall k :: 0 <= k < |p0| ==> s[k] == p0[k] && Negate(f)(s[k]);
      assert i == |p0|;
      var n := Span(s, i, f);
      assert s[i + 1] == tail[0] == parts[1][0];
      assert Negate(f)(parts[1][0]);
      assert n == 1;
      assert s[..i] == p0;
      assert s[i + 1..] == tail;
      SplitRunsJoin(parts[1..], c, f);
    }
  }

  /** Tokens joined by single spaces, each non-empty and free of whitespace. */
  predicate Typed(parts: seq<string>) {
    forall i :: 0 <= i < |parts| ==> parts[i] != [] && All(parts[i], Negate(IsSpace))
  }

  lemma {:induction false} JoinEnds(parts: seq<string>)
    requires |parts| >= 1
    requires Typed(parts)
    ensures var s := JoinWith(parts, ' ');
      s != [] && !IsSpace(s[0]) && !IsSpace(s[|s| - 1])
    decreases |parts|
  {
    var s := JoinWith(parts, ' ');
    assert Negate(IsSpace)(parts[0][0]);
    if |parts| == 1 {
      assert Negate(IsSpace)(parts[0][|parts[0]| - 1]);
    } else {
      JoinEnds(parts[1..]);
      var tail := JoinWith(parts[1..], ' ');
      assert s == parts[0] + [' '] + tail;
      assert s[|s| - 1] == tail[|tail| - 1];
    }
  }

  /** A line of typed words is already trimmed. */
  lemma TrimJoin(parts: seq<string>)
    requires |parts| >= 1 && Typed(parts)
    ensures Trim(JoinWith(parts, ' ')) == JoinWith(parts, ' ')
  {
    JoinEnds(parts);
    TrimKeepsTrimmed(JoinWith(parts, ' '));
  }

  // ---------------------------------------------------------------------
  // Prefixes, suffixes and substring search
  // ---------------------------------------------------------------------

  predicate StartsWith(s: string, p: string) {
    |p| <= |s| && s[..|p|] == p
  }

  predicate EndsWith(s: string, p: string) {
    |p| <= |s| && s[|s| - |p|..] == p
  }

  /** A regex made of single-character classes only: position `k` accepts
      the characters listed in `p[k]`. */
  type Pattern = seq<seq<char>>

  predicate MatchesAt(s: string, p: Pattern, i: nat) {
    i + |p| <= |s| && forall k :: 0 <= k < |p| ==> s[i + k] in p[k]
  }

  /** The case-insensitive literal `w` (regex flag `i`). For ASCII letters
      these are exactly the characters JavaScript folds together. */
  function Lit(w: string): (p: Pattern)
    ensures |p| == |w|
    ensures forall k :: 0 <= k < |w| ==> p[k] == [Lower(w[k]), Upper(w[k])]
  {
    seq(|w|, k requires 0 <= k < |w| => [Lower(w[k]), Upper(w[k])])
  }

  /** The case-sensitive literal `w`. */
  function Exact(w: string): (p: Pattern)
    ensures |p| == |w|
    ensures forall k :: 0 <= k < |w| ==> p[k] == [w[k]]
  {
    seq(|w|, k requires 0 <= k < |w| => [w[k]])
  }

  lemma ExactMatches(s: string, w: string, i: nat)
    ensures MatchesAt(s, Exact(w), i) <==> i + |w| <= |s| && s[i..i + |w|] == w
  {
    if i + |w| <= |s| && s[i..i + |w|] == w {
      forall k | 0 <= k < |w| ensures s[i + k] in Exact(w)[k] {
        assert s[i..i + |w|][k] == s[i + k];
      }
    }
  }

  /** The leftmost match of `p` at or after `from`: what a regex engine
      scanning start positions left to right finds first. */
  function FindFrom(s: string, p: Pattern, from: nat): (r: Option<nat>)
    ensures r.Some? ==> from <= r.value && MatchesAt(s, p, r.value)
    ensures r.Some? ==> forall k :: from <= k < r.value ==> !MatchesAt(s, p, k)
    ensures r.None? ==> forall k :: from <= k ==> !MatchesAt(s, p, k)
    decreases |s| - from
  {
    if from + |p| > |s| then None
    else if MatchesAt(s, p, from) then Some(from)
    else FindFrom(s, p, from + 1)
  }

  predicate OccursAt(s: string, w: string, i: nat) {
    i + |w| <= |s| && s[i..i + |w|] == w
  }

  /** `s.includes(w)`. */
  predicate Contains(s: string, w: string) {
    FindFrom(s, Exact(w), 0).Some?
  }

  /** `includes` holds exactly when `w` occurs as a contiguous slice of `s`. */
  lemma ContainsSpec(s: string, w: string)
    ensures Contains(s, w) <==> exists i: nat :: OccursAt(s, w, i)
  {
    var r := FindFrom(s, Exact(w), 0);
    if r.Some? {
      ExactMatches(s, w, r.value);
      assert OccursAt(s, w, r.value);
    }
    if exists i: nat :: OccursAt(s, w, i) {
      var i: nat :| OccursAt(s, w, i);
      ExactMatches(s, w, i);
    }
  }

  // ---------------------------------------------------------------------
  // Digits and parseInt
  // ---------------------------------------------------------------------

  /** `s.replace(/[^0-9]/g, '')`. */
  function DigitsOnly(s: string): (r: string)
    ensures All(r, IsDigit)
  {
    Filter(s, IsDigit)
  }

  /** The value of a digit character in any radix up to 36; 36 for non-digits. */
  function DigitValue(c: char): nat {
    if '0' <= c <= '9' then c as int - '0' as int
    else if 'a' <= c <= 'z' then c as int - 'a' as int + 10
    else if 'A' <= c <= 'Z' then c as int - 'A' as int + 10
    else 36
  }

  function DigitsValue(ds: string, radix: nat): nat
    decreases |ds|
  {
    if ds == [] then 0
    else DigitsValue(ds[..|ds| - 1], radix) * radix + DigitValue(ds[|ds| - 1])
  }

  /** The digits part of `parseInt`: an optional `0x` prefix selects radix
      16, then the longest run of digits is read; no digits gives `None`. */
  function ParseUnsigned(u: string): (r: Option<nat>)
  {
    var hex := |u| >= 2 && u[0] == '0' && (u[1] == 'x' || u[1] == 'X');
    var radix := if hex then 16 else 10;
    var d := if hex then u[2..] else u;
    var n := Span(d, 0, c => DigitValue(c) < radix);
    if n == 0 then None else Some(DigitsValue(d[..n], radix))
  }

  /** `parseInt(s)` with no radix argument: skip leading whitespace, read an
      optional sign, then the digits; `NaN` is modelled as `None`. */
  function ParseInt(s: string): (r: Option<int>)
  {
    var t := s[Span(s, 0, IsSpace)..];
    if |t| > 0 && t[0] == '-' then
      match ParseUnsigned(t[1..])
      case None => None
      case Some(v) => Some(-(v as int))
    else
      var u := if |t| > 0 && t[0] == '+' then t[1..] else t;
      match ParseUnsigned(u)
      case None => None
      case Some(v) => Some(v as int)
  }

  function DigitChar(d: nat): (c: char)
    requires d < 10
    ensures IsDigit(c) && DigitValue(c) == d
  {
    ('0' as int + d) as char
  }

  /** Decimal rendering of a natural number, as a template literal prints it. */
  function ShowNat(n: nat): (s: string)
    ensures |s| >= 1 && All(s, IsDigit)
  {
    if n < 10 then [DigitChar(n)] else ShowNat(n / 10) + [DigitChar(n % 10)]
  }

  function ShowInt(i: int): (s: string)
    ensures |s| >= 1 && IsDigit(s[|s| - 1]) && All(s, Negate(IsSpace))
  {
    var t := ShowNat(if i < 0 then -i else i);
    forall k | 0 <= k < |t| ensures !IsSpace(t[k]) {
      DigitNotSpace(t[k]);
    }
    if i < 0 then
      var s := "-" + t;
      assert forall k :: 1 <= k < |s| ==> s[k] == t[k - 1];
      assert s[0] == '-' && !IsSpace(s[0]);
      assert forall k :: 0 <= k < |s| ==> Negate(IsSpace)(s[k]);
      s
    else
      assert forall k :: 0 <= k < |t| ==> Negate(IsSpace)(t[k]);
      t
  }

  lemma {:induction false} ShowNatValue(n: nat)
    ensures DigitsValue(ShowNat(n), 10) == n
  {
    if n >= 10 {
      var s := ShowNat(n);
      assert s[..|s| - 1] == ShowNat(n / 10);
      ShowNatValue(n / 10);
    }
  }

  /** A run of decimal digits not followed by `x` is read in radix 10 in full. */
  lemma DecimalSpan(ds: string)
    requires All(ds, IsDigit)
    ensures Span(ds, 0, c => DigitValue(c) < 10) == |ds|
  {
    var n := Span(ds, 0, c => DigitValue(c) < 10);
    assert forall k :: 0 <= k < |ds| ==> DigitValue(ds[k]) < 10;
  }

  lemma ParseDigitRun(ds: string)
    requires |ds| >= 1 && All(ds, IsDigit)
    ensures ParseUnsigned(ds) == Some(DigitsValue(ds, 10))
  {
    DecimalSpan(ds);
    assert ds[..|ds|] == ds;
  }

  lemma ParsePosDigitRun(ds: string)
    requires |ds| >= 1 && All(ds, IsDigit)
    ensures ParseInt(ds) == Some(DigitsValue(ds, 10) as int)
  {
    ParseDigitRun(ds);
    assert !IsSpace(ds[0]);
    assert Span(ds, 0, IsSpace) == 0;
    assert ds[0..] == ds;
  }

  lemma ParseNegDigitRun(t: string)
    requires |t| >= 2 && t[0] == '-' && All(t[1..], IsDigit)
    ensures ParseInt(t) == Some(-(DigitsValue(t[1..], 10) as int))
  {
    ParseDigitRun(t[1..]);
    assert Span(t, 0, IsSpace) == 0;
    assert t[0..] == t;
  }

  /** `parseInt` reads back every integer as it is printed. */
  lemma ParseShowInt(i: int)
    ensures ParseInt(ShowInt(i)) == Some(i)
  {
    var m: nat := if i < 0 then -i else i;
    if i < 0 {
      assert ShowInt(i)[1..] == ShowNat(m);
      ParseNegDigitRun(ShowInt(i));
    } else {
      ParsePosDigitRun(ShowNat(m));
    }
    ShowNatValue(m);
  }
}
